=== FILE: README.md ===
# files-manager: a Dafny model of the request and worker logic

This project models the decision logic of a small personal file-storage
service. Users register and log in with Basic credentials, which gives them a
session token. They upload files, images and folders into a tree. They can
publish or unpublish each entry and read a public entry's bytes. A background
worker makes 500/200/100-pixel thumbnails of uploaded images.

The database, the session store and the job queue are replaced by plain,
immutable state (`Catalog.State`):

- `users` and `files`: sequences in insertion order, as `findOne` and the
  aggregation pipeline see them;
- `sessions`: a map `auth_<token> → (userId, expiresAt)` with a liveness
  flag. Every handler that reads a session takes the clock (`now`, in
  seconds) as a parameter;
- `blobs`: a map from path to contents;
- `thumbnailJobs` and `welcomeJobs`: the queued payloads;
- `nextId`: the next fresh identifier. Identifiers start at 1, and 0 is the
  root sentinel of `parentId`.

Every handler is a pure function. It returns a `Reply` (status with value,
status with error message, or no reply at all) and the next state. Library
calls become parameters or symbolic values:

- the uuid of a token or blob name is a parameter (`token`, `Storage.freshName`);
- `sha1` is the injective symbolic digest `Digest.Sha1`;
- the base64 decoding of the `Authorization` header is a parameter `decode`;
- uploaded bytes and thumbnails are the symbolic blobs `Decoded(text)` and
  `Thumbnail(source, width)`;
- the per-width outcome of resizing and writing is a parameter `failures`;
- whether the unawaited upload write lands is `Storage.writeOk`.

Modules follow the source files:

- `Base`: `Option`, `Reply`, first-match search;
- `Strings`: JavaScript `split`/`join`;
- `Sessions`: the Redis wrapper;
- `Catalog`: the state, its invariant `Valid` and the lookups the handlers share;
- `Files`: `FilesController`;
- `Auth`: `AuthController`;
- `Users`: `UsersController`;
- `Worker`: `worker.js`;
- `Scenario`: end-to-end runs.

Some of the handlers' behaviour is easy to misread; the model follows the
code:

- listings have no owner filter;
- `GET /files/:id` is owner-only, even for public entries;
- an unknown `type` is reported as "Missing type";
- a second logout with the same token is refused with 401, not accepted;
- a failing session-store read gives 401 in the file handlers and in logout,
  and anonymous access on the raw-data endpoint. `GET /users/me` does not
  catch it and sends no reply at all (`Auth.Me` gives `NoReply`);
- two replies report the store as failing with 500: login when the store
  is down, and logout when `del` fails ("Redis server error");
- a successful upload answers with the stored record less its `localPath`;
  show, publish and unpublish answer with the whole record.

The upload's parent lookup is meant to be awaited, giving "Parent not
found" or "Parent is not a folder". As written, the lookup is not awaited and
the check rejects every non-root parent. The model uses the intended check;
see Findings.

## Model

| member | source | states |
|---|---|---|
| Strings.Split | controllers/AuthController.js:15-17 | `split` on one character yields at least one piece, no piece contains the separator, and joining the pieces restores the input |
| Strings.SplitJoin | controllers/AuthController.js:15-17 | round trip: splitting the join of separator-free pieces gives back exactly those pieces |
| Sessions.Key | controllers/AuthController.js:40 | the session key is `auth_` followed by the token (the text "undefined" when the header is absent) |
| Sessions.KeyInjective | controllers/AuthController.js:40 | distinct tokens never share a session key |
| Sessions.Resolve | utils/redis.js:17-20 | a key reads as its user only if it is stored and its expiry is later than now, otherwise as absent |
| Sessions.Put | controllers/AuthController.js:40 | after `setex` with 86400 s, the key resolves to the user strictly before now+86400 and to nothing from then on; every other key resolves as before |
| Sessions.Remove | controllers/AuthController.js:64 | after `del` the key never resolves again; every other key resolves as before |
| Catalog.ParseType | controllers/FilesController.js:28-31 | exactly "folder", "file" and "image" are accepted types |
| Catalog.FindUser | controllers/FilesController.js:64 | a found user is in the collection with that id; absence means no user has the id |
| Catalog.FindEntry | controllers/FilesController.js:248 | finds the first entry with the id; absence means no entry has it |
| Catalog.FindOwned | controllers/FilesController.js:120 | finds the first entry with both the id and the owner; absence means none has both |
| Catalog.Authenticate | controllers/FilesController.js:51-68 | authentication succeeds exactly when the store is readable, the token's key resolves, and a user with that id exists; it then yields that id |
| Catalog.DerivedPath | controllers/FilesController.js:256-258 | a derived path is the source path, an underscore, then the suffix, so path and suffix can be read back |
| Files.FolderRoot | controllers/FilesController.js:80 | the blob folder is `FOLDER_PATH` when it is set and `/tmp/files_manager` otherwise, never empty |
| Catalog.FindOwnedIsFindEntry | controllers/FilesController.js:244-249 | with distinct ids, the owner-first lookup of the raw-data endpoint finds the same entry as the plain lookup |
| Files.BodyError | controllers/FilesController.js:24-37 | the body errors come in fixed order: "Missing name" iff no name; then "Missing type" iff the type is not one of the three; then "Missing data" iff a non-folder has no data |
| Files.ParentError | controllers/FilesController.js:39-49 | with the lookup awaited: "Parent not found" iff a non-root parent id names no entry; "Parent is not a folder" iff it names a non-folder |
| Files.ParentErrorIsFolder | controllers/FilesController.js:39-49 | with distinct ids, the parent check passes exactly for the root and for existing folders, whoever owns them |
| Files.ParentErrorAsWritten | controllers/FilesController.js:40-48 | as written, every non-root parent yields "Parent is not a folder" |
| Files.UploadWith | controllers/FilesController.js:13-98 | body errors come before the parent error; both precede authentication; a failing upload leaves the state unchanged |
| Files.Upload | controllers/FilesController.js:13-98 | validation precedes authentication (a bad body gives 400 whatever the token), then 401. No failing path changes the state. A valid body with a passing parent check from an authenticated user always succeeds. A success appends one record with the defaults `parentId` 0 and `isPublic` false and answers 201 with that record's `id`, `userId`, `name`, `type`, `isPublic` and `parentId`, never its `localPath`. A folder gets no `localPath`; other types get `root + "/" + freshName` and their decoded bytes. Exactly one `{fileId, userId}` job is queued, and only for images |
| Files.UploadAsWritten | controllers/FilesController.js:39-49 | as written, a valid body with a non-root parent is always rejected with "Parent is not a folder", so a successful upload both replies with and stores the root as parent |
| Files.AsWrittenRejectsExistingFolder | controllers/FilesController.js:40-47 | an upload into a real folder is refused as written and accepted by the intended check |
| Files.UploadPreservesValid | controllers/FilesController.js:69-90 | an upload keeps the catalog invariant: fresh distinct ids, folders without a path and other types with one, parents that are folders, owners that exist |
| Files.AppendPreservesValid | controllers/FilesController.js:69-90 | appending a well-formed record under the fresh id keeps the invariant |
| Files.Show | controllers/FilesController.js:100-126 | 401 unless authenticated. Otherwise 200 iff an entry has both the id and the requester as owner, else 404, even when the entry is public |
| Files.SetVisibility | controllers/FilesController.js:187-194 | 404 unless an entry has that id and the requester as owner. On success only that entry's `isPublic` changes, to the given value. No other field, entry or store changes |
| Files.Publish | controllers/FilesController.js:167-195 | a successful publish answers with the entry, now public and present in the catalog; failure changes nothing |
| Files.Unpublish | controllers/FilesController.js:197-225 | a successful unpublish answers with the entry, now private and present in the catalog; failure changes nothing |
| Files.FindOwnedAgree | controllers/FilesController.js:193 | the owner lookup depends only on ids and owners, so re-reading after a visibility change finds the same entry |
| Files.LastWriteWins | controllers/FilesController.js:192-194 | two visibility changes in a row leave the state the second one alone leaves |
| Files.SetVisibilityIdempotent | controllers/FilesController.js:222-224 | publishing (or unpublishing) twice gives the same state as doing it once |
| Files.SetVisibilityPreservesValid | controllers/FilesController.js:192 | a visibility change keeps the catalog invariant |
| Files.Children | controllers/FilesController.js:160 | the `$match` result holds only entries with that `parentId`, and every such entry is in it |
| Files.ChildPositions | controllers/FilesController.js:160 | the matching positions, strictly increasing, and every matching position is among them |
| Files.ChildrenAtPositions | controllers/FilesController.js:160 | the k-th child is the entry at the k-th matching position: each match appears exactly once, in insertion order |
| Files.Page | controllers/FilesController.js:161-162 | a page has at most 20 entries, taken from offsets `20·page` onwards; its length is `min(20, n − 20·page)` or 0 |
| Files.ChildrenPrefix | controllers/FilesController.js:159-163 | the matches among a prefix of the collection are a prefix of all matches |
| Files.Aggregate | controllers/FilesController.js:159-163 | a single pass that counts matches, skips `20·page` and stops at 20 returns exactly the page of the matching entries |
| Files.Index | controllers/FilesController.js:128-165 | 401 iff not authenticated, and 200 for every authenticated request. A non-root parent the requester does not own gives `[]`. Otherwise the reply is entries `[20·page, 20·page+20)` of all entries with that `parentId`, with no owner filter. Always at most 20 entries |
| Files.IndexIgnoresOwner | controllers/FilesController.js:159-160 | any two authenticated users listing the root get the same page |
| Files.PublicRead | controllers/FilesController.js:243-266 | the raw-data rule on the catalog alone: bytes only if the entry exists and is public, otherwise 404 |
| Files.GetFile | controllers/FilesController.js:227-267 | bytes are served only when an entry with that id is public, for the owner too. If every entry with that id is private the answer is 404. Served bytes are the blob stored at that public entry's `localPath`, or at `localPath + "_" + size` when a size is given |
| Files.ReadPath | controllers/FilesController.js:256-259 | without a size the path read is `localPath`; with one it is `localPath`, an underscore, then the size, where a folder's missing `localPath` reads as the text "undefined" |
| Files.GetFileServesSize | controllers/FilesController.js:254-266 | with distinct ids, a public entry whose `localPath_<size>` is stored serves exactly those bytes to every caller |
| Files.GetFileIsPublicRead | controllers/FilesController.js:243-253 | with distinct ids the token makes no difference: every caller gets the anonymous answer |
| Files.PublishThenRead | controllers/FilesController.js:243-266 | after the owner publishes an entry whose bytes are stored, anyone reads those bytes |
| Files.UnpublishThenRead | controllers/FilesController.js:250-253 | after the owner unpublishes an entry, every reader gets 404, the owner included, with or without a size |
| Auth.ParseBasic | controllers/AuthController.js:9-21 | an absent or empty header gives 401. A header without a second word gives 500. With a second word, parsing succeeds exactly when the decoded payload's first two `:`-separated fields exist and are non-empty, and then yields those two fields, further fields dropped. Every other failure is 401 |
| Auth.Payload | controllers/AuthController.js:15 | the text decoded is the header's second word: after the first space, up to the next space or the end |
| Auth.ParseBasicRoundTrip | controllers/AuthController.js:15-21 | a header `<scheme> <encoded>` whose payload decodes to `email:password` parses back to exactly those credentials |
| Auth.FindByCredentials | controllers/AuthController.js:26-29 | a found user has that email and the sha1 digest of that password; absence means nobody has both |
| Auth.Connect | controllers/AuthController.js:8-47 | a parse failure is answered as the parser answers it: 401 without a header or on malformed credentials, 500 for a header without a second word. 401 when no user matches email and digest. 500 with no session when the store is down. Matching credentials with a live store always succeed. On success it returns the token, and `auth_<token>` resolves to the user for exactly 86400 s. Nothing else changes |
| Auth.Me | controllers/AuthController.js:75-88 | a store that is down gives no reply; with the store up the answer is always 200. An unresolved token answers `null`. A resolved token answers the user whose id it maps to, or `null` when no user has that id |
| Auth.Disconnect | controllers/AuthController.js:49-73 | an unknown or expired token gives 401 with no change. Otherwise exactly that key is deleted (204), unless the delete fails (500, no change) |
| Auth.ConnectThenMe | controllers/AuthController.js:34-41 | after a login, `GET /users/me` with the token returns the user strictly before the expiry and `null` at or after it |
| Auth.DisconnectThenResolve | controllers/AuthController.js:60-70 | after a logout the token resolves to nothing, and a second logout is refused with 401 and changes nothing |
| Users.EmailInUse | controllers/UsersController.js:21-33 | the uniqueness check is true iff some user already has the email |
| Users.Register | controllers/UsersController.js:6-46 | "Missing email" comes before "Missing password", then "Already exist", and none of these changes the state. A success answers 201 with `{id, email}` for the fresh id, inserts exactly one user `{email, sha1(password)}` under that id and queues exactly one `{userId}` welcome job |
| Users.RegisterMakesEmailUnique | controllers/UsersController.js:21-40 | after a successful registration exactly one user has the email |
| Users.RegisterPreservesValid | controllers/UsersController.js:34-38 | registration keeps the catalog invariant, distinct emails included |
| Users.RegisterThenConnect | controllers/UsersController.js:34-38 | registration and login agree on the digest: right after registering, logging in with the same credentials succeeds and the token resolves to the new id for 86400 s |
| Worker.WriteArtifacts | worker.js:25-34 | `_500`, `_200` and `_100` each get the source's thumbnail unless that width failed. A failed width leaves its path as it was and does not stop the others. No other path, the source included, changes |
| Worker.ProcessThumbnail | worker.js:10-35 | "Missing fileId" comes before "Missing userId". "File not found" iff no entry has that id and owner. A failed job changes nothing. A found file is handled whatever its widths do, and only the blob store changes |
| Worker.ThumbnailArtifacts | worker.js:25-28 | a handled job leaves the source bytes in place and writes `localPath_500`, `localPath_200` and `localPath_100`, each unless its width failed |
| Worker.WriteArtifactsTwice | worker.js:27-28 | running the attempts again over their own output equals one run in which only widths that failed both times fail |
| Worker.ThumbnailRedelivery | worker.js:25-34 | redelivering a job gives the state of one delivery in which only widths that failed both times fail |
| Worker.ThumbnailIdempotent | worker.js:27-28 | processing the same job twice with the same outcomes gives the state of processing it once |
| Worker.ProcessWelcome | worker.js:37-49 | "Missing userId" without an id. "User not found" iff no user has it. Otherwise the job is handled with the greeting for that user's email |
| Worker.RunThumbnailJob | worker.js:10-11 | read from the job's `data`, a payload naming an owned file is handled |
| Worker.RunWelcomeJob | worker.js:37-38 | read from the job's `data`, a payload naming a registered user is handled |
| Worker.RunThumbnailJobAsWritten | worker.js:11-15 | as written, destructuring the job object makes every thumbnail job fail with "Missing fileId" and change nothing |
| Worker.RunWelcomeJobAsWritten | worker.js:38-42 | as written, every welcome job fails with "Missing userId" |
| Worker.ThumbnailPreservesValid | worker.js:25-34 | the thumbnail handler keeps the catalog invariant |
| Scenario.ImageUploadGetsThumbnails | controllers/FilesController.js:80-94 | end to end from an empty service: register, log in, upload an image. The image is stored at `root/uuid` with its bytes and exactly one job names it. Processing that job writes the three thumbnails of those bytes |
| Scenario.RegisterThenWelcome | controllers/UsersController.js:34-39 | the welcome job a registration queues, read from the job's `data`, greets the new user by the email just registered |
| Scenario.FolderUploadHasNoPath | controllers/FilesController.js:71-78 | a folder upload gets no `localPath`, writes no blob and queues no job |
| Scenario.OtherUserGetsNotFound | controllers/FilesController.js:120-124 | a user asking for another user's private entry gets 404 from both the metadata and the raw-data endpoint |

## Left out

- Database, Redis and Bull clients (`utils/db.js`, `utils/redis.js`, `utils/queue.js`): replaced by the explicit state. Their connection logic is I/O.
- Database failures: the catalog is always reachable. Not modelled: the two 500 "Database error" replies of registration; the 401 that login's `catch` gives when its `findOne` fails (controllers/AuthController.js:42-45); the 401 of `GET /users/me` when its user lookup fails (controllers/AuthController.js:83-86); and the unhandled rejections when a `findOne` in the file handlers fails.
- Session-store reachability is a single flag. A failing read is modelled as the store being down. The separate failure of `del` is the parameter `deleteOk`.
- Express routing, process bootstrap and the status endpoints (`routes/index.js`, `server.js`, `controllers/AppController.js`): wiring and counters only.
- As wired, the raw-data route is `PUT /files/:id/data` and `size` is read from the route parameters, which never hold one. `Files.GetFile` takes `size` as given, which is how the handler treats it.
- Library calls (`uuidv4`, `sha1`, base64, `ObjectId`, `mime-types`): parameters or symbolic values. The `Content-Type` header is not modelled. `ObjectId` parsing errors on malformed ids are not modelled, because ids are typed.
- File and image I/O: blobs are symbolic contents in a map. A resize or write is a per-width success or failure (`failures`).
- Asynchrony: the unawaited blob write, `updateOne` and per-width tasks, and last-write-wins races between concurrent requests. The model is sequential: a visibility change is visible to the re-read that follows it, and the upload's write either lands (`writeOk`) or not.
- Neither queue handler calls `done()` on success (worker.js:25-34 and worker.js:44-48), so the queue would eventually redeliver both kinds of job. The model reports a handled job as `Done`. Redelivery of a thumbnail job is covered by `Worker.ThumbnailRedelivery`; a welcome job only logs, so a redelivery logs its greeting again.
- Request parsing quirks: `page` is a `nat` (a missing page gives `NaN` in the source), `parentId` is a typed id with 0 as root, and body fields are text in which "" stands for missing.
- Auth.ParseBasic: a payload with more than two `:`-separated fields, such as a password containing a colon, succeeds with the first two fields only. This is the handler's own behaviour, stated by the contract, and the model does not treat it as a defect.

## Findings

| source | as written | input that shows it | evidently intended | confidence | as-written member | corrected member |
|---|---|---|---|---|---|---|
| controllers/FilesController.js:40 | `files.findOne` is not awaited, so `parent` is a pending promise: truthy, with `type` undefined | an upload with a valid body whose `parentId` names an existing folder: 400 "Parent is not a folder" | await the lookup: "Parent not found" for no entry, "Parent is not a folder" for a non-folder, otherwise accept | high (not executed) | Files.UploadAsWritten | Files.Upload |
| worker.js:11 | the handlers destructure `job` rather than `job.data` (also at worker.js:38) | any thumbnail job queued by an image upload fails with "Missing fileId"; any welcome job fails with "Missing userId" | read `fileId`/`userId` from the job's `data` | high (not executed) | Worker.RunThumbnailJobAsWritten | Worker.RunThumbnailJob |

`Files.AsWrittenRejectsExistingFolder` shows the first discrepancy. `Files.ParentErrorIsFolder` proves the intended check accepts exactly the existing folders. For the second, `Worker.RunThumbnailJobAsWritten` and `Worker.RunWelcomeJobAsWritten` fail on every job. `Worker.RunThumbnailJob` and `Worker.RunWelcomeJob` handle payloads that name an existing file or user.

=== FILE: auth.dfy ===
/** The authentication handlers: `GET /connect` (Basic credentials to a new
    session), `GET /disconnect` (revocation) and `GET /users/me`. */
module Auth {
  import opened Base
  import opened Strings
  import opened Sessions
  import opened Catalog

  datatype Credentials = Credentials(email: string, password: string)

  const ServerError: string := "Internal Server Error"
  const StoreError: string := "Redis server error"

  /** The text of the header: `Authorization.split(' ')[1]` decoded from
      base64. The decoder is a library call and comes in as `decode`. */
  function Payload(header: string, decode: string -> string): (p: string)
    requires |Split(header, ' ')| >= 2
    // the decoded word is the text after the first space, up to the next
    // space or the end of the header
    ensures
      var scheme, w := Split(header, ' ')[0], Split(header, ' ')[1];
      && p == decode(w)
      && ' ' !in scheme && ' ' !in w
      && |scheme| + 1 + |w| <= |header|
      && header[..|scheme|] == scheme && header[|scheme|] == ' '
      && header[|scheme| + 1..|scheme| + 1 + |w|] == w
      && (|header| == |scheme| + 1 + |w| || header[|scheme| + 1 + |w|] == ' ')
  {
    var words := Split(header, ' ');
    assert Join(words, ' ') == words[0] + [' '] + Join(words[1..], ' ');
    assert |words[1..]| == 1 || Join(words[1..], ' ') == words[1] + [' '] + Join(words[2..], ' ');
    decode(words[1])
  }

  /** Credential parsing. An absent or empty header is 401; a header without a
      space has no second word, which makes the decoder throw outside any
      handler (500); then `[email, password] = payload.split(':')` must give
      two non-empty fields, else 401. */
  function ParseBasic(header: Option<string>, decode: string -> string): (r: Reply<Credentials>)
    ensures header.None? || header == Some("") ==> r == Err(401, Unauthorized)
    ensures header.Some? && header.value != "" && |Split(header.value, ' ')| < 2 ==> r == Err(500, ServerError)
    ensures r.Ok? || r.Err?
    ensures r.Err? ==> r == Err(401, Unauthorized) || r == Err(500, ServerError)
    ensures r.Ok? ==>
      && r.status == 200
      && header.Some? && |Split(header.value, ' ')| >= 2
      && var c, p := r.value, Payload(header.value, decode);
      && c.email != "" && c.password != ""
      && ':' !in c.email && ':' !in c.password
      && |c.email| + 1 + |c.password| <= |p|
      && p[..|c.email| + 1 + |c.password|] == c.email + [':'] + c.password
      && (|p| == |c.email| + 1 + |c.password| || p[|c.email| + 1 + |c.password|] == ':')
    // with a second word, success is exactly two non-empty leading fields
    // (any further fields are dropped), and every failure is 401
    ensures header.Some? && |Split(header.value, ' ')| >= 2 ==>
      var f := Split(Payload(header.value, decode), ':');
      && (r.Ok? <==> f[0] != "" && |f| >= 2 && f[1] != "")
      && (r.Ok? ==> r.value == Credentials(f[0], f[1]))
      && (!r.Ok? ==> r == Err(401, Unauthorized))
  {
    if header.None? || header.value == "" then Err(401, Unauthorized)
    else
      var words := Split(header.value, ' ');
      if |words| < 2 then Err(500, ServerError)
      else
        var fields := Split(decode(words[1]), ':');
        var email := fields[0];
        var password := if |fields| >= 2 then fields[1] else "";
        if email == "" || password == "" then Err(401, Unauthorized)
        else
          assert Join(fields, ':') == fields[0] + [':'] + Join(fields[1..], ':');
          assert |fields[1..]| == 1 || Join(fields[1..], ':') == fields[1] + [':'] + Join(fields[2..], ':');
          Ok(200, Credentials(email, password))
  }

  /** Round trip: a header `<scheme> <encoded>` whose payload decodes to
      `email:password` parses back to exactly those credentials, provided
      neither field is empty or holds a colon. */
  lemma ParseBasicRoundTrip(scheme: string, encoded: string, decode: string -> string, email: string, password: string)
    requires ' ' !in scheme && ' ' !in encoded
    requires email != "" && password != "" && ':' !in email && ':' !in password
    requires decode(encoded) == email + [':'] + password
    ensures ParseBasic(Some(scheme + [' '] + encoded), decode) == Ok(200, Credentials(email, password))
  {
    var header := scheme + [' '] + encoded;
    assert Join([scheme, encoded], ' ') == header by {
      assert [scheme, encoded][1..] == [encoded];
    }
    SplitJoin([scheme, encoded], ' ');
    assert Join([email, password], ':') == email + [':'] + password by {
      assert [email, password][1..] == [password];
    }
    SplitJoin([email, password], ':');
  }

  /** `users.findOne({ email, password: sha1(password) })`. */
  function FindByCredentials(users: seq<User>, email: string, password: string): (r: Option<User>)
    ensures r.Some? ==> r.value in users && r.value.email == email && r.value.password == Sha1(password)
    ensures r.None? ==> forall i :: 0 <= i < |users| ==> !(users[i].email == email && users[i].password == Sha1(password))
  {
    match FirstIndex(users, (u: User) => u.email == email && u.password == Sha1(password))
    case Some(k) => Some(users[k])
    case None => None
  }

  /** `GET /connect`. The fresh uuid comes in as `token`; on success the
      session `auth_<token>` maps to the user for `SessionTtl` seconds. */
  function Connect(s: State, header: Option<string>, decode: string -> string, token: string, now: int): (o: Outcome<string>)
    ensures header.None? || header == Some("") ==> o == Outcome(Err(401, Unauthorized), s)
    ensures o.reply.Err? ==> o.next == s
    ensures o.reply.Ok? || o.reply.Err?
    // a parse failure is answered as the parser answers it (401 or 500)
    ensures ParseBasic(header, decode).Err? ==>
      o == Outcome(Err(ParseBasic(header, decode).status, ParseBasic(header, decode).message), s)
    ensures ParseBasic(header, decode).Ok? ==>
      var c := ParseBasic(header, decode).value;
      && (FindByCredentials(s.users, c.email, c.password).None? ==> o == Outcome(Err(401, Unauthorized), s))
      && (FindByCredentials(s.users, c.email, c.password).Some? && !s.sessions.alive ==> o == Outcome(Err(500, StoreError), s))
      && (FindByCredentials(s.users, c.email, c.password).Some? && s.sessions.alive ==> o.reply.Ok?)
    ensures o.reply.Ok? ==>
      && o.reply == Ok(200, token)
      && ParseBasic(header, decode).Ok?
      && var c := ParseBasic(header, decode).value;
      && var u := FindByCredentials(s.users, c.email, c.password);
      && u.Some? && s.sessions.alive
      && o.next == s.(sessions := o.next.sessions)
      && (forall t :: Resolve(o.next.sessions, Key(Some(token)), t) == (if t < now + SessionTtl then Some(u.value.id) else None))
      && (forall k, t :: k != Key(Some(token)) ==> Resolve(o.next.sessions, k, t) == Resolve(s.sessions, k, t))
  {
    match ParseBasic(header, decode)
    case Err(status, message) => Outcome(Err(status, message), s)
    case NoReply => Outcome(NoReply, s)
    case Ok(_, c) =>
      match FindByCredentials(s.users, c.email, c.password)
      case None => Outcome(Err(401, Unauthorized), s)
      case Some(u) =>
        if !s.sessions.alive then Outcome(Err(500, StoreError), s)
        else Outcome(Ok(200, token), s.(sessions := Put(s.sessions, Key(Some(token)), u.id, now)))
  }

  /** `GET /users/me`: the user the token resolves to. A failing session read
      is an unhandled rejection (no reply); an absent or expired token looks
      up `ObjectId(null)`, a fresh id that matches nobody, and answers
      `null`. */
  function Me(s: State, token: Option<string>, now: int): (r: Reply<Option<User>>)
    ensures !s.sessions.alive <==> r == NoReply
    ensures s.sessions.alive ==> r.Ok?
    ensures s.sessions.alive && Resolve(s.sessions, Key(token), now).None? ==> r == Ok(200, None)
    ensures r.Ok? ==> r.status == 200
    ensures r.Ok? && r.value.Some? ==>
      r.value.value in s.users && Resolve(s.sessions, Key(token), now) == Some(r.value.value.id)
    ensures s.sessions.alive && Resolve(s.sessions, Key(token), now).Some? ==>
      (r.Ok? && r.value.Some? <==>
        exists i :: 0 <= i < |s.users| && s.users[i].id == Resolve(s.sessions, Key(token), now).value)
  {
    if !s.sessions.alive then NoReply
    else match Resolve(s.sessions, Key(token), now)
      case None => Ok(200, None)
      case Some(uid) => Ok(200, FindUser(s.users, uid))
  }

  /** `GET /disconnect`: a token that does not resolve (or a failing read) is
      401; otherwise the key is deleted (204), unless the delete fails (500).
      Whether the delete succeeds comes in as `deleteOk`. */
  function Disconnect(s: State, token: Option<string>, now: int, deleteOk: bool): (o: Outcome<()>)
    ensures !s.sessions.alive || Resolve(s.sessions, Key(token), now).None? ==> o == Outcome(Err(401, Unauthorized), s)
    ensures s.sessions.alive && Resolve(s.sessions, Key(token), now).Some? && !deleteOk ==>
      o == Outcome(Err(500, StoreError), s)
    ensures o.reply.Ok? <==> s.sessions.alive && Resolve(s.sessions, Key(token), now).Some? && deleteOk
    ensures o.reply.Err? ==> o.next == s
    ensures o.reply.Ok? ==>
      && o.reply.status == 204
      && o.next == s.(sessions := o.next.sessions)
      && (forall t :: Resolve(o.next.sessions, Key(token), t) == None)
      && (forall k, t :: k != Key(token) ==> Resolve(o.next.sessions, k, t) == Resolve(s.sessions, k, t))
  {
    if !s.sessions.alive then Outcome(Err(401, Unauthorized), s)
    else match Resolve(s.sessions, Key(token), now)
      case None => Outcome(Err(401, Unauthorized), s)
      case Some(_) =>
        if !deleteOk then Outcome(Err(500, StoreError), s)
        else Outcome(Ok(204, ()), s.(sessions := Remove(s.sessions, Key(token))))
  }

  /** A session created by login resolves to that user until it expires and
      to nothing from then on. */
  lemma {:induction false} ConnectThenMe(s: State, header: Option<string>, decode: string -> string, token: string, now: int, later: int)
    requires Valid(s)
    requires Connect(s, header, decode, token, now).reply.Ok?
    ensures
      var c := ParseBasic(header, decode).value;
      var u := FindByCredentials(s.users, c.email, c.password).value;
      Me(Connect(s, header, decode, token, now).next, Some(token), later)
        == (if later < now + SessionTtl then Ok(200, Some(u)) else Ok(200, None))
  {
    var c := ParseBasic(header, decode).value;
    var u := FindByCredentials(s.users, c.email, c.password).value;
    var t := Connect(s, header, decode, token, now).next;
    if later < now + SessionTtl {
      var f := FindUser(t.users, u.id);
      var i :| 0 <= i < |s.users| && s.users[i] == u;
      var j :| 0 <= j < |s.users| && s.users[j] == f.value;
      assert !(i < j) && !(j < i);
    }
  }

  /** After a logout the token resolves to nothing, and a second logout with
      it is refused without changing anything. */
  lemma DisconnectThenResolve(s: State, token: Option<string>, now: int, later: int, deleteOk: bool)
    requires Disconnect(s, token, now, true).reply.Ok?
    ensures Me(Disconnect(s, token, now, true).next, token, later) == Ok(200, None)
    ensures
      var t := Disconnect(s, token, now, true).next;
      Disconnect(t, token, later, deleteOk) == Outcome(Err(401, Unauthorized), t)
  {
  }
}

=== FILE: base.dfy ===
/** Shared vocabulary of the files-manager model: optional values, identifiers,
    the replies a request handler can give, and first-match search over a
    sequence (the shape of every `findOne` in the service). */
module Base {

  /** A value that may be absent (JavaScript's `undefined` / `null`). */
  datatype Option<+T> = None | Some(value: T)

  /** Identifiers of users and file entries. Real identifiers are allocated
      from 1 upwards; 0 is the root sentinel a `parentId` takes by default. */
  type Id = nat

  const Root: Id := 0

  /** What a handler answers: a status with a JSON value, a status with an
      `{ error }` message, or nothing at all (an unhandled rejection leaves the
      request without a response). */
  datatype Reply<+T> = Ok(status: nat, value: T) | Err(status: nat, message: string) | NoReply

  const Unauthorized: string := "Unauthorized"
  const NotFound: string := "Not found"

  /** The position of the first element satisfying `p`, as a `findOne` over
      documents in insertion order returns the first match. */
  function FirstIndex<T>(xs: seq<T>, p: T -> bool): (r: Option<nat>)
    ensures r.Some? ==> r.value < |xs| && p(xs[r.value])
    ensures r.Some? ==> forall j :: 0 <= j < r.value ==> !p(xs[j])
    ensures r.None? ==> forall j :: 0 <= j < |xs| ==> !p(xs[j])
  {
    if |xs| == 0 then None
    else if p(xs[0]) then Some(0)
    else match FirstIndex(xs[1..], p)
      case None => None
      case Some(k) => Some(k + 1)
  }

  /** The first match depends only on which positions satisfy the predicate. */
  lemma {:induction false} FirstIndexAgree<T>(xs: seq<T>, ys: seq<T>, p: T -> bool, q: T -> bool)
    requires |xs| == |ys|
    requires forall j :: 0 <= j < |xs| ==> (p(xs[j]) <==> q(ys[j]))
    ensures FirstIndex(xs, p) == FirstIndex(ys, q)
  {
    if |xs| > 0 && !p(xs[0]) {
      FirstIndexAgree(xs[1..], ys[1..], p, q);
    }
  }

  function Min(a: int, b: int): int
  {
    if a <= b then a else b
  }
}

=== FILE: catalog.dfy ===
/** The service's state with its stores made explicit: the `users` and `files`
    collections as sequences in insertion order, the session store, the blob
    store as a map from path to bytes, the two job queues as lists of payloads,
    and the next fresh identifier. Also the lookups every handler shares. */
module Catalog {
  import opened Base
  import opened Sessions

  datatype FileType = Folder | File | Image

  /** The accepted `type` values; any other text is rejected. */
  function ParseType(t: string): (r: Option<FileType>)
    ensures r.Some? <==> t == "folder" || t == "file" || t == "image"
    ensures r == Some(Folder) <==> t == "folder"
    ensures r == Some(Image) <==> t == "image"
  {
    if t == "folder" then Some(Folder)
    else if t == "file" then Some(File)
    else if t == "image" then Some(Image)
    else None
  }

  /** The `sha1` of a password. The hash is a library call; it is modelled as
      a symbolic digest, which makes it injective and never equal to the
      plaintext string it is computed from. */
  datatype Digest = Sha1(preimage: string)

  datatype User = User(id: Id, email: string, password: Digest)

  /** Blob contents, symbolic because the decoder and the image resizer are
      library calls: the bytes a base64 text denotes, or a resized copy of
      another blob at a given width. */
  datatype Blob = Decoded(base64: string) | Thumbnail(source: Blob, width: nat)

  /** A record of the `files` collection; `userId` is its owner. */
  datatype FileEntry = FileEntry(
    id: Id,
    userId: Id,
    name: string,
    fileType: FileType,
    parentId: Id,
    isPublic: bool,
    localPath: Option<string>)

  /** Queue payloads: `{ fileId, userId }` and `{ userId }`. A field a producer
      left out is absent. */
  datatype ThumbnailJob = ThumbnailJob(fileId: Option<Id>, userId: Option<Id>)
  datatype WelcomeJob = WelcomeJob(userId: Option<Id>)

  datatype State = State(
    users: seq<User>,
    files: seq<FileEntry>,
    sessions: SessionStore,
    blobs: map<string, Blob>,
    thumbnailJobs: seq<ThumbnailJob>,
    welcomeJobs: seq<WelcomeJob>,
    nextId: Id)

  /** A handler's reply together with the state it leaves behind. */
  datatype Outcome<+T> = Outcome(reply: Reply<T>, next: State)

  /** The derived-artifact naming convention `<path>_<suffix>`. */
  function DerivedPath(path: string, suffix: string): (r: string)
    ensures |r| == |path| + 1 + |suffix| && r[..|path|] == path && r[|path| + 1..] == suffix
    ensures r[|path|] == '_'
  {
    path + "_" + suffix
  }

  /** `users.findOne({ _id })`. */
  function FindUser(users: seq<User>, id: Id): (r: Option<User>)
    ensures r.Some? ==> r.value in users && r.value.id == id
    ensures r.None? ==> forall i :: 0 <= i < |users| ==> users[i].id != id
  {
    match FirstIndex(users, (u: User) => u.id == id)
    case Some(k) => Some(users[k])
    case None => None
  }

  /** `files.findOne({ _id })`: position of the first entry with that id. */
  function FindEntry(files: seq<FileEntry>, id: Id): (r: Option<nat>)
    ensures r.Some? ==> r.value < |files| && files[r.value].id == id
    ensures r.Some? ==> forall j :: 0 <= j < r.value ==> files[j].id != id
    ensures r.None? ==> forall j :: 0 <= j < |files| ==> files[j].id != id
  {
    FirstIndex(files, (e: FileEntry) => e.id == id)
  }

  /** `files.findOne({ _id, userId })`: first entry with that id and owner. */
  function FindOwned(files: seq<FileEntry>, id: Id, owner: Id): (r: Option<nat>)
    ensures r.Some? ==> r.value < |files| && files[r.value].id == id && files[r.value].userId == owner
    ensures r.Some? ==> forall j :: 0 <= j < r.value ==> !(files[j].id == id && files[j].userId == owner)
    ensures r.None? ==> forall j :: 0 <= j < |files| ==> !(files[j].id == id && files[j].userId == owner)
  {
    FirstIndex(files, (e: FileEntry) => e.id == id && e.userId == owner)
  }

  /** The authentication prologue of every file handler: read `auth_<token>`
      (a failing read and a missing key both give 401), then require a user
      with that id. */
  function Authenticate(s: State, token: Option<string>, now: int): (r: Option<Id>)
    ensures r.Some? <==>
      s.sessions.alive && Resolve(s.sessions, Key(token), now).Some?
      && exists i :: 0 <= i < |s.users| && s.users[i].id == Resolve(s.sessions, Key(token), now).value
    ensures r.Some? ==> r == Resolve(s.sessions, Key(token), now)
  {
    if !s.sessions.alive then None
    else match Resolve(s.sessions, Key(token), now)
      case None => None
      case Some(uid) => if FindUser(s.users, uid).Some? then Some(uid) else None
  }

  ghost predicate UniqueFileIds(files: seq<FileEntry>)
  {
    forall i, j :: 0 <= i < j < |files| ==> files[i].id != files[j].id
  }

  ghost predicate IsFolder(files: seq<FileEntry>, id: Id)
  {
    exists j :: 0 <= j < |files| && files[j].id == id && files[j].fileType == Folder
  }

  /** Every non-root parent is an existing folder. */
  ghost predicate ParentsAreFolders(files: seq<FileEntry>)
  {
    forall i :: 0 <= i < |files| && files[i].parentId != Root ==> IsFolder(files, files[i].parentId)
  }

  /** What every handler keeps true of the catalog:
      identifiers are positive, below `nextId` (itself positive) and distinct; emails are
      distinct; a folder never carries a `localPath` and any other entry
      always does; a non-root parent is an existing folder; every entry's
      owner is a registered user. */
  ghost predicate Valid(s: State)
  {
    && s.nextId > 0
    && (forall i :: 0 <= i < |s.users| ==> 0 < s.users[i].id < s.nextId)
    && (forall i :: 0 <= i < |s.files| ==> 0 < s.files[i].id < s.nextId)
    && (forall i, j :: 0 <= i < j < |s.users| ==> s.users[i].id != s.users[j].id)
    && (forall i, j :: 0 <= i < j < |s.users| ==> s.users[i].email != s.users[j].email)
    && UniqueFileIds(s.files)
    && (forall i :: 0 <= i < |s.files| ==> (s.files[i].fileType == Folder <==> s.files[i].localPath.None?))
    && ParentsAreFolders(s.files)
    && (forall i :: 0 <= i < |s.files| ==> FindUser(s.users, s.files[i].userId).Some?)
  }

  /** Under unique ids, the owner-filtered lookup finds the same entry as the
      plain lookup whenever it finds one. */
  lemma FindOwnedIsFindEntry(files: seq<FileEntry>, id: Id, owner: Id)
    requires UniqueFileIds(files)
    requires FindOwned(files, id, owner).Some?
    ensures FindEntry(files, id) == FindOwned(files, id, owner)
  {
    var k := FindOwned(files, id, owner).value;
    var j := FindEntry(files, id).value;
    assert !(j < k) && !(k < j);
  }
}

=== FILE: files.dfy ===
/** The file handlers of the service (`POST /files`, `GET /files/:id`,
    `GET /files`, `PUT /files/:id/publish`, `PUT /files/:id/unpublish` and the
    raw-data endpoint) as pure functions over the catalog state. */
module Files {
  import opened Base
  import opened Sessions
  import opened Catalog

  /** Entries per page of a listing. */
  const PageSize: nat := 20

  /** Where blobs go when `FOLDER_PATH` is unset. */
  const DefaultFolderPath: string := "/tmp/files_manager"

  /** The JSON body of an upload. A text field holds "" when it is missing or
      empty (both are falsy to the handler); `parentId` is `Root` when
      missing and `isPublic` is false when missing, the handler's defaults. */
  datatype UploadBody = UploadBody(name: string, fileType: string, parentId: Id, isPublic: bool, data: string)

  /** What an upload takes from outside the catalog: the `FOLDER_PATH`
      setting ("" when unset), the fresh uuid that names the blob, and whether
      the fire-and-forget blob write eventually lands. */
  datatype Storage = Storage(folderPath: string, freshName: string, writeOk: bool)

  /** The 201 body of an upload: the stored record's fields except
      `localPath`, which the client never sees. */
  datatype Created = Created(id: Id, userId: Id, name: string, fileType: FileType, isPublic: bool, parentId: Id)

  function Summary(e: FileEntry): Created
  {
    Created(e.id, e.userId, e.name, e.fileType, e.isPublic, e.parentId)
  }

  /** `FOLDER_PATH || '/tmp/files_manager'`: the setting when it is set,
      the default otherwise, and never empty. */
  function FolderRoot(folderPath: string): (r: string)
    ensures r != ""
    ensures folderPath != "" ==> r == folderPath
    ensures folderPath == "" ==> r == DefaultFolderPath
  {
    if folderPath != "" then folderPath else DefaultFolderPath
  }

  // ---------------------------------------------------------------------------
  // Upload

  /** The first body check that fails, in the handler's fixed order: name,
      then type, then data (which only non-folders need). */
  function BodyError(b: UploadBody): (r: Option<string>)
    ensures r == Some("Missing name") <==> b.name == ""
    ensures r == Some("Missing type") <==> b.name != "" && ParseType(b.fileType).None?
    ensures r == Some("Missing data") <==>
      b.name != "" && ParseType(b.fileType).Some? && b.fileType != "folder" && b.data == ""
    ensures r.None? <==>
      b.name != "" && ParseType(b.fileType).Some? && (b.fileType == "folder" || b.data != "")
  {
    if b.name == "" then Some("Missing name")
    else if ParseType(b.fileType).None? then Some("Missing type")
    else if b.fileType != "folder" && b.data == "" then Some("Missing data")
    else None
  }

  /** The parent check as the handler intends it: a non-root parent must be an
      existing entry (of any owner) whose type is folder. */
  function ParentError(files: seq<FileEntry>, parentId: Id): (r: Option<string>)
    ensures r == Some("Parent not found") <==> parentId != Root && FindEntry(files, parentId).None?
    ensures r == Some("Parent is not a folder") <==>
      parentId != Root && FindEntry(files, parentId).Some? && files[FindEntry(files, parentId).value].fileType != Folder
    ensures r.None? || r == Some("Parent not found") || r == Some("Parent is not a folder")
  {
    if parentId == Root then None
    else match FindEntry(files, parentId)
      case None => Some("Parent not found")
      case Some(k) => if files[k].fileType != Folder then Some("Parent is not a folder") else None
  }

  /** With distinct ids, the parent check passes exactly for the root and for
      existing folders. */
  lemma ParentErrorIsFolder(files: seq<FileEntry>, parentId: Id)
    requires UniqueFileIds(files)
    ensures ParentError(files, parentId).None? <==> parentId == Root || IsFolder(files, parentId)
  {
    if parentId != Root && IsFolder(files, parentId) {
      var j :| 0 <= j < |files| && files[j].id == parentId && files[j].fileType == Folder;
      var k := FindEntry(files, parentId).value;
      assert !(j < k) && !(k < j);
    }
  }

  /** The parent check as written: the lookup is not awaited, so `parent` is
      a pending promise, which is truthy and has no `type`. Every non-root
      parent is therefore rejected as not a folder. */
  function ParentErrorAsWritten(parentId: Id): (r: Option<string>)
    ensures r.None? <==> parentId == Root
    ensures r.Some? ==> r.value == "Parent is not a folder"
  {
    if parentId == Root then None else Some("Parent is not a folder")
  }

  /** The upload handler with the outcome of its parent check supplied:
      body checks, then the parent check, then authentication, then the
      insert (and, for non-folders, the blob write and, for images, the
      thumbnail job). */
  function UploadWith(s: State, token: Option<string>, now: int, body: UploadBody,
                      parentError: Option<string>, env: Storage): (o: Outcome<Created>)
    ensures BodyError(body).Some? ==> o == Outcome(Err(400, BodyError(body).value), s)
    ensures BodyError(body).None? && parentError.Some? ==> o == Outcome(Err(400, parentError.value), s)
    ensures o.reply.Err? ==> o.next == s
    ensures !o.reply.NoReply?
  {
    if BodyError(body).Some? then Outcome(Err(400, BodyError(body).value), s)
    else if parentError.Some? then Outcome(Err(400, parentError.value), s)
    else match Authenticate(s, token, now)
      case None => Outcome(Err(401, Unauthorized), s)
      case Some(uid) =>
        var kind := ParseType(body.fileType).value;
        var id := s.nextId;
        if kind == Folder then
          var e := FileEntry(id, uid, body.name, kind, body.parentId, body.isPublic, None);
          Outcome(Ok(201, Summary(e)), s.(files := s.files + [e], nextId := id + 1))
        else
          var path := FolderRoot(env.folderPath) + "/" + env.freshName;
          var e := FileEntry(id, uid, body.name, kind, body.parentId, body.isPublic, Some(path));
          var blobs := if env.writeOk then s.blobs[path := Decoded(body.data)] else s.blobs;
          var jobs := if kind == Image then s.thumbnailJobs + [ThumbnailJob(Some(id), Some(uid))] else s.thumbnailJobs;
          Outcome(Ok(201, Summary(e)), s.(files := s.files + [e], blobs := blobs, thumbnailJobs := jobs, nextId := id + 1))
  }

  /** `POST /files` with the parent check as intended. */
  function Upload(s: State, token: Option<string>, now: int, body: UploadBody, env: Storage): (o: Outcome<Created>)
    // validation comes first, in a fixed order, whatever the token
    ensures BodyError(body).Some? ==> o == Outcome(Err(400, BodyError(body).value), s)
    ensures BodyError(body).None? && ParentError(s.files, body.parentId).Some? ==>
      o == Outcome(Err(400, ParentError(s.files, body.parentId).value), s)
    ensures BodyError(body).None? && ParentError(s.files, body.parentId).None? && Authenticate(s, token, now).None? ==>
      o == Outcome(Err(401, Unauthorized), s)
    // a failing upload changes nothing
    ensures o.reply.Err? ==> o.next == s
    ensures o.reply.Ok? || o.reply.Err?
    // a valid upload by an authenticated user succeeds
    ensures BodyError(body).None? && ParentError(s.files, body.parentId).None? && Authenticate(s, token, now).Some? ==>
      o.reply.Ok?
    // a successful upload appends one record built from the body and
    // answers with that record less its `localPath`
    ensures o.reply.Ok? ==> |o.next.files| == |s.files| + 1
    ensures o.reply.Ok? ==>
      var e := o.next.files[|s.files|];
      && o.reply.status == 201
      && o.reply.value == Created(e.id, e.userId, e.name, e.fileType, e.isPublic, e.parentId)
      && Authenticate(s, token, now) == Some(e.userId)
      && o.next.files == s.files + [e]
      && e.id == s.nextId && o.next.nextId == s.nextId + 1
      && e.name == body.name && ParseType(body.fileType) == Some(e.fileType)
      && e.parentId == body.parentId && e.isPublic == body.isPublic
      && (e.fileType == Folder <==> e.localPath.None?)
      && (e.fileType != Folder ==> e.localPath == Some(FolderRoot(env.folderPath) + "/" + env.freshName))
      && o.next.users == s.users && o.next.sessions == s.sessions && o.next.welcomeJobs == s.welcomeJobs
    // the blob is written for non-folders, and only images get a thumbnail job
    ensures o.reply.Ok? ==>
      var e := o.next.files[|s.files|];
      && o.next.blobs == (if e.localPath.Some? && env.writeOk then s.blobs[e.localPath.value := Decoded(body.data)] else s.blobs)
      && o.next.thumbnailJobs == s.thumbnailJobs + (if e.fileType == Image then [ThumbnailJob(Some(e.id), Some(e.userId))] else [])
  {
    UploadWith(s, token, now, body, ParentError(s.files, body.parentId), env)
  }

  /** `POST /files` as written, with the unawaited parent lookup. */
  function UploadAsWritten(s: State, token: Option<string>, now: int, body: UploadBody, env: Storage): (o: Outcome<Created>)
    ensures BodyError(body).None? && body.parentId != Root ==> o == Outcome(Err(400, "Parent is not a folder"), s)
    ensures o.reply.Ok? ==> o.reply.value.parentId == Root
    ensures o.reply.Ok? ==> |o.next.files| == |s.files| + 1 && o.next.files[|s.files|].parentId == Root
  {
    UploadWith(s, token, now, body, ParentErrorAsWritten(body.parentId), env)
  }

  /** The unawaited lookup rejects an upload into a real folder that the
      intended check accepts. */
  lemma AsWrittenRejectsExistingFolder(s: State, token: Option<string>, now: int, body: UploadBody, env: Storage)
    requires Valid(s)
    requires BodyError(body).None? && body.parentId != Root && IsFolder(s.files, body.parentId)
    requires Authenticate(s, token, now).Some?
    ensures UploadAsWritten(s, token, now, body, env).reply == Err(400, "Parent is not a folder")
    ensures Upload(s, token, now, body, env).reply.Ok?
  {
    ParentErrorIsFolder(s.files, body.parentId);
  }

  /** A successful upload keeps the catalog invariant. */
  lemma UploadPreservesValid(s: State, token: Option<string>, now: int, body: UploadBody, env: Storage)
    requires Valid(s)
    ensures Valid(Upload(s, token, now, body, env).next)
  {
    var o := Upload(s, token, now, body, env);
    if o.reply.Ok? {
      ParentErrorIsFolder(s.files, body.parentId);
      AppendPreservesValid(s, o.next.files[|s.files|], o.next);
    }
  }

  /** Appending a well-formed record under a fresh id keeps the invariant. */
  lemma AppendPreservesValid(s: State, e: FileEntry, t: State)
    requires Valid(s)
    requires t.users == s.users && t.files == s.files + [e] && t.nextId == s.nextId + 1
    requires e.id == s.nextId && e.id > 0
    requires e.fileType == Folder <==> e.localPath.None?
    requires e.parentId != Root ==> IsFolder(s.files, e.parentId)
    requires FindUser(s.users, e.userId).Some?
    ensures Valid(t)
  {
    assert forall i :: 0 <= i < |s.files| ==> t.files[i] == s.files[i];
    assert t.files[|s.files|] == e;
    ParentsAppend(s.files, e);
  }

  /** Appending an entry whose parent is the root or an existing folder keeps
      every parent a folder. */
  lemma ParentsAppend(files: seq<FileEntry>, e: FileEntry)
    requires ParentsAreFolders(files)
    requires e.parentId != Root ==> IsFolder(files, e.parentId)
    ensures ParentsAreFolders(files + [e])
  {
    var t := files + [e];
    forall i | 0 <= i < |t| && t[i].parentId != Root
      ensures IsFolder(t, t[i].parentId)
    {
      var j :| 0 <= j < |files| && files[j].id == t[i].parentId && files[j].fileType == Folder;
      assert t[j] == files[j];
    }
  }

  /** Changing entries without touching their ids, types or parents keeps
      every parent a folder. */
  lemma ParentsSameShape(a: seq<FileEntry>, b: seq<FileEntry>)
    requires ParentsAreFolders(a) && |a| == |b|
    requires forall i :: 0 <= i < |a| ==> b[i].id == a[i].id && b[i].fileType == a[i].fileType && b[i].parentId == a[i].parentId
    ensures ParentsAreFolders(b)
  {
    forall i | 0 <= i < |b| && b[i].parentId != Root
      ensures IsFolder(b, b[i].parentId)
    {
      var j :| 0 <= j < |a| && a[j].id == b[i].parentId && a[j].fileType == Folder;
      assert b[j].id == a[j].id;
    }
  }

  // ---------------------------------------------------------------------------
  // Show, publish, unpublish

  /** `GET /files/:id`: only the owner sees an entry; anyone else gets 404,
      even for a public entry. */
  function Show(s: State, token: Option<string>, now: int, id: Id): (r: Reply<FileEntry>)
    ensures Authenticate(s, token, now).None? ==> r == Err(401, Unauthorized)
    ensures Authenticate(s, token, now).Some? ==>
      (r.Ok? <==> exists i :: 0 <= i < |s.files| && s.files[i].id == id && s.files[i].userId == Authenticate(s, token, now).value)
    ensures Authenticate(s, token, now).Some? && !r.Ok? ==> r == Err(404, NotFound)
    ensures r.Ok? ==>
      && r.status == 200 && r.value in s.files && r.value.id == id
      && Authenticate(s, token, now) == Some(r.value.userId)
  {
    match Authenticate(s, token, now)
    case None => Err(401, Unauthorized)
    case Some(uid) =>
      match FindOwned(s.files, id, uid)
      case None => Err(404, NotFound)
      case Some(k) => Ok(200, s.files[k])
  }

  /** Overwrite `isPublic` on the requester's entry with that id. */
  function SetVisibility(s: State, token: Option<string>, now: int, id: Id, value: bool): (o: Outcome<FileEntry>)
    ensures Authenticate(s, token, now).None? ==> o == Outcome(Err(401, Unauthorized), s)
    ensures Authenticate(s, token, now).Some? ==>
      (o.reply.Ok? <==> exists i :: 0 <= i < |s.files| && s.files[i].id == id && s.files[i].userId == Authenticate(s, token, now).value)
    ensures Authenticate(s, token, now).Some? && !o.reply.Ok? ==> o == Outcome(Err(404, NotFound), s)
    ensures o.reply.Err? ==> o.next == s
    ensures o.reply.Ok? ==>
      && o.reply.status == 200
      && o.reply.value.id == id && o.reply.value.isPublic == value
      && Authenticate(s, token, now) == Some(o.reply.value.userId)
      && o.reply.value in o.next.files
    // only `isPublic` of that one entry changes, and only the catalog changes
    ensures o.reply.Ok? ==>
      && |o.next.files| == |s.files|
      && (forall i :: 0 <= i < |s.files| ==> o.next.files[i].(isPublic := s.files[i].isPublic) == s.files[i])
      && (forall i :: 0 <= i < |s.files| && s.files[i].id != id ==> o.next.files[i] == s.files[i])
      && o.next.(files := s.files) == s
  {
    match Authenticate(s, token, now)
    case None => Outcome(Err(401, Unauthorized), s)
    case Some(uid) =>
      match FindOwned(s.files, id, uid)
      case None => Outcome(Err(404, NotFound), s)
      case Some(k) =>
        var e := s.files[k].(isPublic := value);
        assert s.files[k := e][k] == e;
        Outcome(Ok(200, e), s.(files := s.files[k := e]))
  }

  /** `PUT /files/:id/publish`. */
  function Publish(s: State, token: Option<string>, now: int, id: Id): (o: Outcome<FileEntry>)
    ensures o.reply.Ok? ==> o.reply.value.isPublic && o.reply.value in o.next.files && o.reply.value.id == id
    ensures o.reply.Err? ==> o.next == s
  {
    SetVisibility(s, token, now, id, true)
  }

  /** `PUT /files/:id/unpublish`. */
  function Unpublish(s: State, token: Option<string>, now: int, id: Id): (o: Outcome<FileEntry>)
    ensures o.reply.Ok? ==> !o.reply.value.isPublic && o.reply.value in o.next.files && o.reply.value.id == id
    ensures o.reply.Err? ==> o.next == s
  {
    SetVisibility(s, token, now, id, false)
  }

  /** The owner-filtered lookup sees only ids and owners. */
  lemma FindOwnedAgree(xs: seq<FileEntry>, ys: seq<FileEntry>, id: Id, owner: Id)
    requires |xs| == |ys|
    requires forall j :: 0 <= j < |xs| ==> xs[j].id == ys[j].id && xs[j].userId == ys[j].userId
    ensures FindOwned(xs, id, owner) == FindOwned(ys, id, owner)
  {
    var p := (e: FileEntry) => e.id == id && e.userId == owner;
    FirstIndexAgree(xs, ys, p, p);
  }

  /** Two visibility changes in a row leave the state the second alone
      leaves: the last write wins. */
  lemma {:induction false} LastWriteWins(s: State, token: Option<string>, now: int, id: Id, v1: bool, v2: bool)
    requires SetVisibility(s, token, now, id, v1).reply.Ok?
    ensures SetVisibility(SetVisibility(s, token, now, id, v1).next, token, now, id, v2)
         == SetVisibility(s, token, now, id, v2)
  {
    var uid := Authenticate(s, token, now).value;
    var k := FindOwned(s.files, id, uid).value;
    var t := s.(files := s.files[k := s.files[k].(isPublic := v1)]);
    assert SetVisibility(s, token, now, id, v1).next == t;
    assert Authenticate(t, token, now) == Some(uid);
    FindOwnedAgree(t.files, s.files, id, uid);
    assert t.files[k := t.files[k].(isPublic := v2)] == s.files[k := s.files[k].(isPublic := v2)];
  }

  /** Publishing (or unpublishing) twice is publishing once. */
  lemma SetVisibilityIdempotent(s: State, token: Option<string>, now: int, id: Id, v: bool)
    ensures SetVisibility(SetVisibility(s, token, now, id, v).next, token, now, id, v).next
         == SetVisibility(s, token, now, id, v).next
  {
    if SetVisibility(s, token, now, id, v).reply.Ok? {
      LastWriteWins(s, token, now, id, v, v);
    }
  }

  /** A visibility change keeps the catalog invariant. */
  lemma SetVisibilityPreservesValid(s: State, token: Option<string>, now: int, id: Id, v: bool)
    requires Valid(s)
    ensures Valid(SetVisibility(s, token, now, id, v).next)
  {
    var o := SetVisibility(s, token, now, id, v);
    if o.reply.Ok? {
      VisibilityOnlyPreservesValid(s, o.next);
    }
  }

  /** A state whose entries differ from a valid one's only in `isPublic` is
      valid. */
  lemma VisibilityOnlyPreservesValid(s: State, t: State)
    requires Valid(s)
    requires t.(files := s.files) == s && |t.files| == |s.files|
    requires forall i :: 0 <= i < |s.files| ==> t.files[i].(isPublic := s.files[i].isPublic) == s.files[i]
    ensures Valid(t)
  {
    assert forall i :: 0 <= i < |s.files| ==>
      && t.files[i].id == s.files[i].id && t.files[i].fileType == s.files[i].fileType
      && t.files[i].parentId == s.files[i].parentId && t.files[i].userId == s.files[i].userId
      && t.files[i].localPath == s.files[i].localPath;
    ParentsSameShape(s.files, t.files);
  }

  // ---------------------------------------------------------------------------
  // Listing

  /** The positions of the entries whose `parentId` matches: strictly
      increasing, and every matching position is among them. */
  function ChildPositions(files: seq<FileEntry>, parent: Id): (idx: seq<nat>)
    ensures forall k :: 0 <= k < |idx| ==> idx[k] < |files| && files[idx[k]].parentId == parent
    ensures forall k, l :: 0 <= k < l < |idx| ==> idx[k] < idx[l]
    ensures forall j :: 0 <= j < |files| && files[j].parentId == parent ==> j in idx
    decreases |files|
  {
    if |files| == 0 then []
    else
      var n := |files| - 1;
      var init := files[..n];
      assert forall j :: 0 <= j < n ==> init[j] == files[j];
      ChildPositions(init, parent) + (if files[n].parentId == parent then [n] else [])
  }

  /** The entries whose `parentId` matches, in insertion order (`$match`). */
  function Children(files: seq<FileEntry>, parent: Id): (r: seq<FileEntry>)
    ensures |r| <= |files|
    ensures forall k :: 0 <= k < |r| ==> r[k].parentId == parent && r[k] in files
    ensures forall j :: 0 <= j < |files| && files[j].parentId == parent ==> files[j] in r
    decreases |files|
  {
    if |files| == 0 then []
    else
      var init := files[..|files| - 1];
      var last := files[|files| - 1];
      assert forall j :: 0 <= j < |init| ==> init[j] == files[j];
      Children(init, parent) + (if last.parentId == parent then [last] else [])
  }

  /** Order and multiplicity of the matches: the k-th child is the entry at
      the k-th matching position, so each matching entry appears once, in
      insertion order. */
  lemma {:induction false} ChildrenAtPositions(files: seq<FileEntry>, parent: Id)
    ensures |Children(files, parent)| == |ChildPositions(files, parent)|
    ensures forall k :: 0 <= k < |Children(files, parent)| ==>
      Children(files, parent)[k] == files[ChildPositions(files, parent)[k]]
    decreases |files|
  {
    if |files| > 0 {
      var n := |files| - 1;
      var init := files[..n];
      ChildrenAtPositions(init, parent);
      var hit := files[n].parentId == parent;
      PositionsStep(files, Children(init, parent), ChildPositions(init, parent), hit);
    }
  }

  /** One step of `ChildrenAtPositions`: entries read at positions below the
      last still read the same in the longer sequence, and the last entry, if
      it matches, sits at the last position. */
  lemma PositionsStep(files: seq<FileEntry>, c: seq<FileEntry>, p: seq<nat>, hit: bool)
    requires |files| > 0 && |c| == |p|
    requires forall k :: 0 <= k < |c| ==> p[k] < |files| - 1 && c[k] == files[..|files| - 1][p[k]]
    ensures var n := |files| - 1;
      var cs, ps := c + (if hit then [files[n]] else []), p + (if hit then [n] else []);
      |cs| == |ps| && forall k :: 0 <= k < |cs| ==> cs[k] == files[ps[k]]
  {
  }

  /** Page `page` of `xs` (`$skip: 20 * page`, then `$limit: 20`). */
  function Page<T>(xs: seq<T>, page: nat): (r: seq<T>)
    ensures |r| == (if PageSize * page >= |xs| then 0 else Min(PageSize, |xs| - PageSize * page))
    ensures forall k :: 0 <= k < |r| ==> r[k] == xs[PageSize * page + k]
  {
    var lo := Min(PageSize * page, |xs|);
    var hi := Min(lo + PageSize, |xs|);
    xs[lo..hi]
  }

  /** The children of a prefix are a prefix of the children. */
  lemma {:induction false} ChildrenPrefix(files: seq<FileEntry>, parent: Id, i: nat)
    requires i <= |files|
    ensures Children(files[..i], parent) <= Children(files, parent)
    decreases |files| - i
  {
    if i < |files| {
      var init := files[..|files| - 1];
      assert init[..i] == files[..i];
      ChildrenPrefix(init, parent, i);
    } else {
      assert files[..i] == files;
    }
  }

  /** Extending the prefix by one entry adds that entry to the matches iff
      it matches. */
  lemma ChildrenStep(files: seq<FileEntry>, parent: Id, i: nat)
    requires i < |files|
    ensures Children(files[..i + 1], parent)
         == Children(files[..i], parent) + (if files[i].parentId == parent then [files[i]] else [])
  {
    assert files[..i + 1][..i] == files[..i];
  }

  /** When the single pass stops, at the end of the collection or with a
      full page, what it kept is the page. */
  lemma PassEndsOnPage(files: seq<FileEntry>, parent: Id, page: nat, i: nat, r: seq<FileEntry>)
    requires i <= |files|
    requires r == Children(files[..i], parent)[Min(PageSize * page, |Children(files[..i], parent)|)..]
    requires |r| <= PageSize
    requires i == |files| || |r| == PageSize
    ensures r == Page(Children(files, parent), page)
  {
    ChildrenPrefix(files, parent, i);
    if i == |files| {
      assert files[..i] == files;
    }
  }

  /** The aggregation pipeline run as one pass over the collection: count the
      matches, drop the first `20 * page`, stop after 20. */
  method Aggregate(files: seq<FileEntry>, parent: Id, page: nat) returns (r: seq<FileEntry>)
    ensures r == Page(Children(files, parent), page)
  {
    var skip := PageSize * page;
    var seen := 0;
    r := [];
    var i := 0;
    while i < |files| && |r| < PageSize
      invariant 0 <= i <= |files|
      invariant seen == |Children(files[..i], parent)|
      invariant r == Children(files[..i], parent)[Min(skip, seen)..]
      invariant |r| <= PageSize
    {
      ghost var matched := Children(files[..i], parent);
      ChildrenStep(files, parent, i);
      if files[i].parentId == parent {
        if seen >= skip {
          assert (matched + [files[i]])[skip..] == matched[skip..] + [files[i]];
          r := r + [files[i]];
        }
        seen := seen + 1;
      }
      i := i + 1;
    }
    PassEndsOnPage(files, parent, page, i, r);
  }

  /** `GET /files?parentId=&page=`. A non-root parent must be an entry the
      requester owns, else the listing is empty; the listing itself has no
      owner filter. */
  function Index(s: State, token: Option<string>, now: int, parentId: Id, page: nat): (r: Reply<seq<FileEntry>>)
    ensures Authenticate(s, token, now).None? <==> r == Err(401, Unauthorized)
    ensures Authenticate(s, token, now).Some? ==> r.Ok?
    ensures r.Ok? || r.Err?
    ensures r.Ok? ==>
      && r.status == 200
      && |r.value| <= PageSize
      && (forall k :: 0 <= k < |r.value| ==> r.value[k].parentId == parentId && r.value[k] in s.files)
    ensures r.Ok? && parentId != Root && FindOwned(s.files, parentId, Authenticate(s, token, now).value).None? ==>
      r.value == []
    ensures r.Ok? && (parentId == Root || FindOwned(s.files, parentId, Authenticate(s, token, now).value).Some?) ==>
      var matching := Children(s.files, parentId);
      && |r.value| == (if PageSize * page >= |matching| then 0 else Min(PageSize, |matching| - PageSize * page))
      && forall k :: 0 <= k < |r.value| ==> r.value[k] == matching[PageSize * page + k]
  {
    match Authenticate(s, token, now)
    case None => Err(401, Unauthorized)
    case Some(uid) =>
      if parentId != Root && FindOwned(s.files, parentId, uid).None? then Ok(200, [])
      else Ok(200, Page(Children(s.files, parentId), page))
  }

  /** Two authenticated users listing the root see the same page. */
  lemma IndexIgnoresOwner(s: State, t1: Option<string>, t2: Option<string>, now: int, page: nat)
    requires Authenticate(s, t1, now).Some? && Authenticate(s, t2, now).Some?
    ensures Index(s, t1, now, Root, page) == Index(s, t2, now, Root, page)
    ensures Index(s, t1, now, Root, page) == Ok(200, Page(Children(s.files, Root), page))
  {
  }

  // ---------------------------------------------------------------------------
  // Raw data

  /** The path the raw-data endpoint reads: `localPath`, or with a size,
      `localPath + "_" + size`, in which a missing `localPath` reads as the
      text "undefined". A missing `localPath` without a size is no path. */
  function ReadPath(e: FileEntry, size: string): (r: Option<string>)
    ensures size == "" ==> r == e.localPath
    // with a size, `<localPath>_<size>`, where a folder's missing path reads
    // as the text "undefined"
    ensures size != "" ==>
      var base := if e.localPath.Some? then e.localPath.value else "undefined";
      && r.Some? && |r.value| == |base| + 1 + |size|
      && r.value[..|base|] == base && r.value[|base|] == '_' && r.value[|base| + 1..] == size
  {
    if size != "" then Some(DerivedPath(if e.localPath.Some? then e.localPath.value else "undefined", size))
    else e.localPath
  }

  /** The raw-data rule stated on the catalog alone: the entry with that id
      must exist and be public; its bytes are then read at `ReadPath`. */
  function PublicRead(s: State, id: Id, size: string): (r: Reply<Blob>)
    ensures r.Ok? ==> exists i :: 0 <= i < |s.files| && s.files[i].id == id && s.files[i].isPublic
    ensures (forall i :: 0 <= i < |s.files| && s.files[i].id == id ==> !s.files[i].isPublic) ==> r == Err(404, NotFound)
  {
    match FindEntry(s.files, id)
    case None => Err(404, NotFound)
    case Some(k) =>
      if !s.files[k].isPublic then Err(404, NotFound)
      else match ReadPath(s.files[k], size)
        case None => NoReply
        case Some(path) => if path in s.blobs then Ok(200, s.blobs[path]) else Err(404, NotFound)
  }

  /** `GET /files/:id/data[?size=]` as the handler does it: with a live token
      of an existing user, look among that user's entries first, then among
      all entries; a failing session read counts as anonymous. */
  function GetFile(s: State, token: Option<string>, now: int, id: Id, size: string): (r: Reply<Blob>)
    // public only, even for the owner
    ensures r.Ok? ==> exists i :: 0 <= i < |s.files| && s.files[i].id == id && s.files[i].isPublic
    ensures (forall i :: 0 <= i < |s.files| && s.files[i].id == id ==> !s.files[i].isPublic) ==> r == Err(404, NotFound)
    ensures r.Ok? ==> r.status == 200 && r.value in s.blobs.Values
    // the bytes served are those at the entry's `localPath`, or at
    // `localPath_<size>` when a size is given
    ensures r.Ok? ==>
      exists i :: 0 <= i < |s.files| && s.files[i].id == id && s.files[i].isPublic
        && ReadPath(s.files[i], size).Some? && ReadPath(s.files[i], size).value in s.blobs
        && r.value == s.blobs[ReadPath(s.files[i], size).value]
  {
    var uid := if s.sessions.alive then Resolve(s.sessions, Key(token), now) else None;
    var user := if uid.Some? then FindUser(s.users, uid.value) else None;
    var owned := if user.Some? then FindOwned(s.files, id, uid.value) else None;
    var found := if owned.Some? then owned else FindEntry(s.files, id);
    if found.None? || !s.files[found.value].isPublic then Err(404, NotFound)
    else match ReadPath(s.files[found.value], size)
      case None => NoReply
      case Some(path) => if path in s.blobs then Ok(200, s.blobs[path]) else Err(404, NotFound)
  }

  /** With distinct ids the token makes no difference: the raw-data endpoint
      answers every caller as it answers an anonymous one. */
  lemma GetFileIsPublicRead(s: State, token: Option<string>, now: int, id: Id, size: string)
    requires UniqueFileIds(s.files)
    ensures GetFile(s, token, now, id, size) == PublicRead(s, id, size)
  {
    var uid := if s.sessions.alive then Resolve(s.sessions, Key(token), now) else None;
    if uid.Some? && FindUser(s.users, uid.value).Some? && FindOwned(s.files, id, uid.value).Some? {
      FindOwnedIsFindEntry(s.files, id, uid.value);
    }
  }

  /** With distinct ids, a public entry whose `localPath_<size>` is stored
      serves exactly those bytes to every caller. */
  lemma GetFileServesSize(s: State, token: Option<string>, now: int, id: Id, size: string, k: nat)
    requires UniqueFileIds(s.files)
    requires k < |s.files| && s.files[k].id == id && s.files[k].isPublic && s.files[k].localPath.Some?
    requires size != "" && DerivedPath(s.files[k].localPath.value, size) in s.blobs
    ensures GetFile(s, token, now, id, size) == Ok(200, s.blobs[DerivedPath(s.files[k].localPath.value, size)])
  {
    GetFileIsPublicRead(s, token, now, id, size);
    var j := FindEntry(s.files, id).value;
    assert !(j < k) && !(k < j);
  }

  /** After the owner publishes an entry with stored bytes, anyone reads them. */
  lemma PublishThenRead(s: State, token: Option<string>, now: int, id: Id, reader: Option<string>, later: int)
    requires UniqueFileIds(s.files)
    requires Publish(s, token, now, id).reply.Ok?
    requires Publish(s, token, now, id).reply.value.localPath.Some?
    requires Publish(s, token, now, id).reply.value.localPath.value in s.blobs
    ensures GetFile(Publish(s, token, now, id).next, reader, later, id, "")
         == Ok(200, s.blobs[Publish(s, token, now, id).reply.value.localPath.value])
  {
    var o := Publish(s, token, now, id);
    var t := o.next;
    assert UniqueFileIds(t.files) by {
      assert forall i :: 0 <= i < |s.files| ==> t.files[i].id == s.files[i].id;
    }
    GetFileIsPublicRead(t, reader, later, id, "");
    var k := FindEntry(t.files, id).value;
    var j :| 0 <= j < |t.files| && t.files[j] == o.reply.value;
    assert !(j < k) && !(k < j);
  }

  /** After the owner unpublishes an entry, nobody reads it, the owner included. */
  lemma UnpublishThenRead(s: State, token: Option<string>, now: int, id: Id, reader: Option<string>, later: int, size: string)
    requires UniqueFileIds(s.files)
    requires Unpublish(s, token, now, id).reply.Ok?
    ensures GetFile(Unpublish(s, token, now, id).next, reader, later, id, size) == Err(404, NotFound)
  {
    var o := Unpublish(s, token, now, id);
    var t := o.next;
    assert UniqueFileIds(t.files) by {
      assert forall i :: 0 <= i < |s.files| ==> t.files[i].id == s.files[i].id;
    }
    var j :| 0 <= j < |t.files| && t.files[j] == o.reply.value;
    forall i | 0 <= i < |t.files| && t.files[i].id == id
      ensures !t.files[i].isPublic
    {
      assert !(i < j) && !(j < i);
    }
  }
}

=== FILE: scenario.dfy ===
/** End-to-end runs of the service, composed from the handlers: a user
    registers, logs in, uploads an image or a folder, and the thumbnail
    consumer processes the job the upload queued. */
module Scenario {
  import opened Base
  import opened Sessions
  import opened Catalog
  import opened Files
  import Auth
  import Users
  import Worker

  /** A fresh deployment: no users, no files, no sessions, the session store
      reachable, identifiers starting at 1. */
  function Fresh(): (s: State)
    ensures Valid(s)
  {
    State([], [], SessionStore(true, map[]), map[], [], [], 1)
  }

  /** An authenticated user with no files uploads an image at the root; the
      queued job then yields the three thumbnails. */
  lemma ImageUploadThenWorker(s: State, token: string, now: int, name: string, data: string, env: Storage)
    requires Authenticate(s, Some(token), now).Some? && s.files == [] && s.thumbnailJobs == []
    requires name != "" && data != "" && env.writeOk
    ensures
      var up := Upload(s, Some(token), now, UploadBody(name, "image", Root, false, data), env);
      var lp := FolderRoot(env.folderPath) + "/" + env.freshName;
      && up.reply.Ok? && |up.next.files| == 1 && up.next.files[0].localPath == Some(lp)
      && up.next.thumbnailJobs == [ThumbnailJob(Some(up.reply.value.id), Some(up.reply.value.userId))]
      && var w := Worker.ProcessThumbnail(up.next, up.next.thumbnailJobs[0], {});
      && w.result.Done?
      && w.next.blobs[lp] == Decoded(data)
      && w.next.blobs[DerivedPath(lp, "500")] == Thumbnail(Decoded(data), 500)
      && w.next.blobs[DerivedPath(lp, "200")] == Thumbnail(Decoded(data), 200)
      && w.next.blobs[DerivedPath(lp, "100")] == Thumbnail(Decoded(data), 100)
  {
    var up := Upload(s, Some(token), now, UploadBody(name, "image", Root, false, data), env);
    var e := up.next.files[0];
    var lp := FolderRoot(env.folderPath) + "/" + env.freshName;
    assert up.next.files == [e] && e.localPath == Some(lp);
    assert up.next.blobs == s.blobs[lp := Decoded(data)];
    assert FindOwned(up.next.files, e.id, e.userId) == Some(0);
    Worker.ThumbnailArtifacts(up.next, up.next.thumbnailJobs[0], {});
  }

  /** On a fresh deployment, registering and logging in authenticates the
      first user, who owns nothing yet, until the session expires. */
  lemma FreshLogin(email: string, password: string, scheme: string, encoded: string,
                   decode: string -> string, token: string, now: int, later: int)
    requires email != "" && password != "" && ':' !in email && ':' !in password
    requires ' ' !in scheme && ' ' !in encoded && decode(encoded) == email + [':'] + password
    requires now <= later < now + SessionTtl
    ensures
      var s1 := Users.Register(Fresh(), email, password).next;
      var s2 := Auth.Connect(s1, Some(scheme + [' '] + encoded), decode, token, now).next;
      && Authenticate(s2, Some(token), later) == Some(1)
      && s2.files == [] && s2.thumbnailJobs == []
  {
    var s0 := Fresh();
    Users.RegisterThenConnect(s0, email, password, scheme, encoded, decode, token, now);
    var s1 := Users.Register(s0, email, password).next;
    var s2 := Auth.Connect(s1, Some(scheme + [' '] + encoded), decode, token, now).next;
    assert s2.users == s1.users && s2.files == [] && s2.thumbnailJobs == [];
    assert s2.users[0].id == 1;
  }

  /** Register, log in, upload an image: the upload is stored under the
      folder root with its decoded bytes, exactly one thumbnail job names it,
      and processing that job writes the three thumbnails next to it. */
  lemma {:induction false} ImageUploadGetsThumbnails(email: string, password: string,
      scheme: string, encoded: string, decode: string -> string, token: string,
      now: int, later: int, name: string, data: string, env: Storage)
    requires email != "" && password != "" && ':' !in email && ':' !in password
    requires ' ' !in scheme && ' ' !in encoded && decode(encoded) == email + [':'] + password
    requires now <= later < now + SessionTtl
    requires name != "" && data != "" && env.writeOk
    ensures
      var s1 := Users.Register(Fresh(), email, password).next;
      var s2 := Auth.Connect(s1, Some(scheme + [' '] + encoded), decode, token, now).next;
      var up := Upload(s2, Some(token), later, UploadBody(name, "image", Root, false, data), env);
      var lp := FolderRoot(env.folderPath) + "/" + env.freshName;
      && up.reply.Ok? && |up.next.files| == 1 && up.next.files[0].localPath == Some(lp)
      && up.next.thumbnailJobs == [ThumbnailJob(Some(up.reply.value.id), Some(up.reply.value.userId))]
      && var w := Worker.ProcessThumbnail(up.next, up.next.thumbnailJobs[0], {});
      && w.result.Done?
      && w.next.blobs[lp] == Decoded(data)
      && w.next.blobs[DerivedPath(lp, "500")] == Thumbnail(Decoded(data), 500)
      && w.next.blobs[DerivedPath(lp, "200")] == Thumbnail(Decoded(data), 200)
      && w.next.blobs[DerivedPath(lp, "100")] == Thumbnail(Decoded(data), 100)
  {
    var s1 := Users.Register(Fresh(), email, password).next;
    var s2 := Auth.Connect(s1, Some(scheme + [' '] + encoded), decode, token, now).next;
    FreshLogin(email, password, scheme, encoded, decode, token, now, later);
    ImageUploadThenWorker(s2, token, later, name, data, env);
  }

  /** The welcome job a registration queues, read from the job's `data`,
      greets the new user by the email just registered. */
  lemma RegisterThenWelcome(s: State, email: string, password: string, jobId: nat)
    requires Valid(s)
    requires Users.Register(s, email, password).reply.Ok?
    ensures
      var t := Users.Register(s, email, password).next;
      Worker.RunWelcomeJob(t, Worker.QueuedJob(jobId, t.welcomeJobs[|t.welcomeJobs| - 1]))
        == Worker.Done(Some("Welcome " + email + "!"))
  {
    var t := Users.Register(s, email, password).next;
    assert t.users[|s.users|].id == s.nextId;
    var u := FindUser(t.users, s.nextId).value;
    var i :| 0 <= i < |t.users| && t.users[i] == u;
    assert i == |s.users|;
  }

  /** A folder upload is stored without a `localPath`, writes no blob and
      queues no job. */
  lemma FolderUploadHasNoPath(s: State, token: Option<string>, now: int, name: string, parentId: Id, isPublic: bool, env: Storage)
    requires Upload(s, token, now, UploadBody(name, "folder", parentId, isPublic, ""), env).reply.Ok?
    ensures
      var o := Upload(s, token, now, UploadBody(name, "folder", parentId, isPublic, ""), env);
      && o.next.files[|s.files|].localPath.None?
      && o.next.blobs == s.blobs
      && o.next.thumbnailJobs == s.thumbnailJobs
  {
  }

  /** Another user asking for a private entry gets 404, never a distinct
      "forbidden" answer, both for the metadata and for the bytes. */
  lemma OtherUserGetsNotFound(s: State, token: Option<string>, now: int, id: Id, size: string)
    requires Valid(s)
    requires Authenticate(s, token, now).Some?
    requires forall i :: 0 <= i < |s.files| && s.files[i].id == id ==>
      s.files[i].userId != Authenticate(s, token, now).value && !s.files[i].isPublic
    ensures Show(s, token, now, id) == Err(404, NotFound)
    ensures GetFile(s, token, now, id, size) == Err(404, NotFound)
  {
  }
}

=== FILE: sessions.dfy ===
/** The session store (Redis in the service): keys `auth_<token>` mapped to a
    user id with a time-to-live. Time is an explicit clock in seconds; a key
    whose expiry has been reached reads as absent, as Redis evicts it. */
module Sessions {
  import opened Base

  /** `24 * 3600` seconds, the time-to-live given to every login. */
  const SessionTtl: int := 24 * 3600

  datatype Session = Session(userId: Id, expiresAt: int)

  /** `alive` is false when the store cannot be reached: reads then fail. */
  datatype SessionStore = SessionStore(alive: bool, entries: map<string, Session>)

  /** The key of a token: the template literal `auth_${token}`, in which an
      absent header reads as the text "undefined". */
  function Key(token: Option<string>): (k: string)
    ensures |k| >= 5 && k[..5] == "auth_"
    ensures token.Some? ==> k[5..] == token.value
    ensures token.None? ==> k == "auth_undefined"
  {
    "auth_" + (if token.Some? then token.value else "undefined")
  }

  /** Distinct tokens never share a session key. */
  lemma KeyInjective(a: string, b: string)
    requires Key(Some(a)) == Key(Some(b))
    ensures a == b
  {
    assert a == Key(Some(a))[5..];
  }

  /** `GET key` at time `now`: the stored user while the key has not expired. */
  function Resolve(store: SessionStore, key: string, now: int): (r: Option<Id>)
    ensures r.Some? ==> key in store.entries && now < store.entries[key].expiresAt
    ensures r.Some? ==> r.value == store.entries[key].userId
    ensures r.None? ==> key !in store.entries || store.entries[key].expiresAt <= now
  {
    if key in store.entries && now < store.entries[key].expiresAt
    then Some(store.entries[key].userId)
    else None
  }

  /** `SETEX key SessionTtl userId` at time `now`: the key resolves to the user
      for exactly `SessionTtl` seconds; every other key is unaffected. */
  function Put(store: SessionStore, key: string, userId: Id, now: int): (r: SessionStore)
    ensures r.alive == store.alive
    ensures forall t :: Resolve(r, key, t) == (if t < now + SessionTtl then Some(userId) else None)
    ensures forall k, t :: k != key ==> Resolve(r, k, t) == Resolve(store, k, t)
  {
    store.(entries := store.entries[key := Session(userId, now + SessionTtl)])
  }

  /** `DEL key`: the key never resolves again; every other key is unaffected. */
  function Remove(store: SessionStore, key: string): (r: SessionStore)
    ensures r.alive == store.alive
    ensures forall t :: Resolve(r, key, t) == None
    ensures forall k, t :: k != key ==> Resolve(r, k, t) == Resolve(store, k, t)
    ensures key !in r.entries && r.entries.Keys == store.entries.Keys - {key}
  {
    store.(entries := store.entries - {key})
  }
}

=== FILE: strings.dfy ===
/** JavaScript's `String.prototype.split` with a one-character separator, and
    its inverse `join`, as used to take an `Authorization` header apart. */
module Strings {

  /** The pieces put back together with the separator between them. */
  function Join(parts: seq<string>, sep: char): string
  {
    if |parts| == 0 then ""
    else if |parts| == 1 then parts[0]
    else parts[0] + [sep] + Join(parts[1..], sep)
  }

  /** `s.split(sep)`: the maximal separator-free pieces of `s`, empty pieces
      included, so there is always at least one piece. */
  function Split(s: string, sep: char): (parts: seq<string>)
    ensures |parts| >= 1
    ensures forall i :: 0 <= i < |parts| ==> sep !in parts[i]
    ensures Join(parts, sep) == s
    decreases |s|
  {
    if |s| == 0 then [""]
    else if s[0] == sep then
      var rest := Split(s[1..], sep);
      assert ([""] + rest)[1..] == rest;
      [""] + rest
    else
      var rest := Split(s[1..], sep);
      var parts := [[s[0]] + rest[0]] + rest[1..];
      assert |rest| > 1 ==> parts[1..] == rest[1..];
      assert |rest| > 1 ==> Join(rest, sep) == rest[0] + [sep] + Join(rest[1..], sep);
      assert s == [s[0]] + s[1..];
      parts
  }

  /** A separator-free string is a single piece. */
  lemma {:induction false} SplitNoSeparator(a: string, sep: char)
    requires sep !in a
    ensures Split(a, sep) == [a]
    decreases |a|
  {
    if |a| > 0 {
      SplitNoSeparator(a[1..], sep);
      assert [a[0]] + a[1..] == a;
    }
  }

  /** Splitting at the first separator peels off the first piece. */
  lemma {:induction false} SplitFirst(a: string, sep: char, b: string)
    requires sep !in a
    ensures Split(a + [sep] + b, sep) == [a] + Split(b, sep)
    decreases |a|
  {
    var s := a + [sep] + b;
    if |a| == 0 {
      assert s[0] == sep && s[1..] == b;
    } else {
      assert s[0] == a[0] && s[1..] == a[1..] + [sep] + b;
      SplitFirst(a[1..], sep, b);
      assert [a[0]] + a[1..] == a;
    }
  }

  /** Round trip: joining separator-free pieces and splitting again gives
      the pieces back. */
  lemma {:induction false} SplitJoin(parts: seq<string>, sep: char)
    requires |parts| >= 1
    requires forall i :: 0 <= i < |parts| ==> sep !in parts[i]
    ensures Split(Join(parts, sep), sep) == parts
    decreases |parts|
  {
    if |parts| == 1 {
      SplitNoSeparator(parts[0], sep);
    } else {
      SplitJoin(parts[1..], sep);
      SplitFirst(parts[0], sep, Join(parts[1..], sep));
      assert [parts[0]] + parts[1..] == parts;
    }
  }
}

=== FILE: users.dfy ===
/** Registration, `POST /users`: field checks, email uniqueness, the stored
    password digest and the welcome job. */
module Users {
  import opened Base
  import opened Strings
  import opened Sessions
  import opened Catalog
  import Auth

  ghost predicate EmailTaken(users: seq<User>, email: string)
  {
    exists i :: 0 <= i < |users| && users[i].email == email
  }

  /** `users.countDocuments({ email }) > 0`. */
  function EmailInUse(users: seq<User>, email: string): (r: bool)
    ensures r <==> EmailTaken(users, email)
  {
    FirstIndex(users, (u: User) => u.email == email).Some?
  }

  /** The 201 body of a registration: the new user's id and email. */
  datatype Registered = Registered(id: Id, email: string)

  /** `POST /users` with `email` and `password` ("" when missing). */
  function Register(s: State, email: string, password: string): (o: Outcome<Registered>)
    ensures email == "" ==> o == Outcome(Err(400, "Missing email"), s)
    ensures email != "" && password == "" ==> o == Outcome(Err(400, "Missing password"), s)
    ensures email != "" && password != "" && EmailTaken(s.users, email) ==> o == Outcome(Err(400, "Already exist"), s)
    ensures o.reply.Ok? <==> email != "" && password != "" && !EmailTaken(s.users, email)
    ensures o.reply.Ok? || o.reply.Err?
    ensures o.reply.Err? ==> o.next == s
    // one user is inserted, holding the digest and never the plaintext,
    // and one welcome job names it
    ensures o.reply.Ok? ==>
      && o.reply == Ok(201, Registered(s.nextId, email))
      && o.next.users == s.users + [User(s.nextId, email, Sha1(password))]
      && o.next.welcomeJobs == s.welcomeJobs + [WelcomeJob(Some(s.nextId))]
      && o.next.nextId == s.nextId + 1
      && o.next.files == s.files && o.next.sessions == s.sessions && o.next.blobs == s.blobs
      && o.next.thumbnailJobs == s.thumbnailJobs
  {
    if email == "" then Outcome(Err(400, "Missing email"), s)
    else if password == "" then Outcome(Err(400, "Missing password"), s)
    else if EmailInUse(s.users, email) then Outcome(Err(400, "Already exist"), s)
    else
      var id := s.nextId;
      Outcome(Ok(201, Registered(id, email)), s.(users := s.users + [User(id, email, Sha1(password))],
                              welcomeJobs := s.welcomeJobs + [WelcomeJob(Some(id))],
                              nextId := id + 1))
  }

  /** After a successful registration exactly one user has the email. */
  lemma RegisterMakesEmailUnique(s: State, email: string, password: string)
    requires Register(s, email, password).reply.Ok?
    ensures var users := Register(s, email, password).next.users;
      && EmailTaken(users, email)
      && forall i, j :: 0 <= i < |users| && 0 <= j < |users| && users[i].email == email && users[j].email == email ==> i == j
  {
    var users := Register(s, email, password).next.users;
    assert users[|s.users|].email == email;
  }

  /** Registration keeps the catalog invariant. */
  lemma RegisterPreservesValid(s: State, email: string, password: string)
    requires Valid(s)
    ensures Valid(Register(s, email, password).next)
  {
    var o := Register(s, email, password);
    if o.reply.Ok? {
      var t := o.next;
      forall i | 0 <= i < |t.files|
        ensures FindUser(t.users, t.files[i].userId).Some?
      {
        var u := FindUser(s.users, s.files[i].userId).value;
        var j :| 0 <= j < |s.users| && s.users[j] == u;
        assert t.users[j] == u;
      }
    }
  }

  /** A user who has just registered can log in with those credentials
      (when the session store is up): registration and login agree on the
      digest. */
  lemma RegisterThenConnect(s: State, email: string, password: string,
                            scheme: string, encoded: string, decode: string -> string, token: string, now: int)
    requires Register(s, email, password).reply.Ok?
    requires s.sessions.alive
    requires ' ' !in scheme && ' ' !in encoded && ':' !in email && ':' !in password
    requires decode(encoded) == email + [':'] + password
    ensures
      var t := Register(s, email, password).next;
      var o := Auth.Connect(t, Some(scheme + [' '] + encoded), decode, token, now);
      && o.reply == Ok(200, token)
      && forall later :: now <= later < now + SessionTtl ==>
           Resolve(o.next.sessions, Key(Some(token)), later) == Some(s.nextId)
  {
    var t := Register(s, email, password).next;
    Auth.ParseBasicRoundTrip(scheme, encoded, decode, email, password);
    var u := Auth.FindByCredentials(t.users, email, password);
    assert t.users[|s.users|].email == email && t.users[|s.users|].password == Sha1(password);
    var i :| 0 <= i < |t.users| && t.users[i] == u.value;
    assert i == |s.users|;
  }
}

=== FILE: worker.dfy ===
/** The queue consumers: the thumbnail job (three resized copies of an image,
    each width attempted independently) and the welcome job. */
module Worker {
  import opened Base
  import opened Catalog

  /** The outcome of one delivery: the job is failed with a reason (handed to
      the queue's retry policy), or handled, with the line it logs. */
  datatype JobResult = Failed(reason: string) | Done(log: Option<string>)

  datatype JobOutcome = JobOutcome(result: JobResult, next: State)

  /** The queue library's job object: the producer's payload sits in `data`. */
  datatype QueuedJob<T> = QueuedJob(jobId: nat, data: T)

  /** The three derived paths of a source path. */
  function ArtifactPaths(localPath: string): set<string>
  {
    {DerivedPath(localPath, "500"), DerivedPath(localPath, "200"), DerivedPath(localPath, "100")}
  }

  /** The outcome at one width's path: its thumbnail if the width did not
      fail, otherwise whatever was there before. */
  ghost predicate WidthOutcome(r: map<string, Blob>, blobs: map<string, Blob>, localPath: string,
                               source: Blob, width: nat, suffix: string, failures: set<nat>)
  {
    var p := DerivedPath(localPath, suffix);
    if width in failures then (p in r <==> p in blobs) && (p in r ==> r[p] == blobs[p])
    else p in r && r[p] == Thumbnail(source, width)
  }

  /** One width's attempt: read the source, resize it, write the result to
      `<path>_<width>`. A width in `failures` (its resize or its write
      failed) leaves the store as it was. */
  function Attempt(blobs: map<string, Blob>, localPath: string, source: Blob,
                   width: nat, suffix: string, failures: set<nat>): map<string, Blob>
  {
    if width in failures then blobs else blobs[DerivedPath(localPath, suffix) := Thumbnail(source, width)]
  }

  /** The attempts for widths 500, 200 and 100, in that order: each derived
      path gets its thumbnail unless that width failed, a failure does not
      stop the other widths, and no other path changes, the source included. */
  function WriteArtifacts(blobs: map<string, Blob>, localPath: string, source: Blob, failures: set<nat>): (r: map<string, Blob>)
    ensures WidthOutcome(r, blobs, localPath, source, 500, "500", failures)
    ensures WidthOutcome(r, blobs, localPath, source, 200, "200", failures)
    ensures WidthOutcome(r, blobs, localPath, source, 100, "100", failures)
    ensures forall p :: p !in ArtifactPaths(localPath) ==> (p in r <==> p in blobs) && (p in r ==> r[p] == blobs[p])
    ensures localPath !in ArtifactPaths(localPath)
  {
    var p500, p200, p100 := DerivedPath(localPath, "500"), DerivedPath(localPath, "200"), DerivedPath(localPath, "100");
    assert p500[|localPath| + 1..] == "500" && p200[|localPath| + 1..] == "200" && p100[|localPath| + 1..] == "100";
    assert p500 != p200 && p500 != p100 && p200 != p100;
    var b500 := Attempt(blobs, localPath, source, 500, "500", failures);
    var b200 := Attempt(b500, localPath, source, 200, "200", failures);
    Attempt(b200, localPath, source, 100, "100", failures)
  }

  /** The thumbnail handler on a payload: `fileId` is checked before
      `userId`, then the file must exist with that owner. Once it does, the
      job is handled whatever happens to the individual widths; a missing
      source blob (or a folder, which has no `localPath`) makes every resize
      throw, and those errors are swallowed too. */
  function ProcessThumbnail(s: State, job: ThumbnailJob, failures: set<nat>): (o: JobOutcome)
    ensures job.fileId.None? ==> o == JobOutcome(Failed("Missing fileId"), s)
    ensures job.fileId.Some? && job.userId.None? ==> o == JobOutcome(Failed("Missing userId"), s)
    ensures job.fileId.Some? && job.userId.Some? ==>
      (o.result == Failed("File not found") <==>
        forall i :: 0 <= i < |s.files| ==> !(s.files[i].id == job.fileId.value && s.files[i].userId == job.userId.value))
    ensures o.result.Failed? ==> o.next == s
    ensures o.result.Done? ==> o.result.log.None?
    // only the blob store changes
    ensures o.next == s.(blobs := o.next.blobs)
    ensures o.result.Done? ==>
      var e := s.files[FindOwned(s.files, job.fileId.value, job.userId.value).value];
      && e.id == job.fileId.value && e.userId == job.userId.value
      && (e.localPath.Some? && e.localPath.value in s.blobs ==>
          var lp := e.localPath.value;
          o.next.blobs == WriteArtifacts(s.blobs, lp, s.blobs[lp], failures))
      && (e.localPath.None? || e.localPath.value !in s.blobs ==> o.next == s)
  {
    if job.fileId.None? then JobOutcome(Failed("Missing fileId"), s)
    else if job.userId.None? then JobOutcome(Failed("Missing userId"), s)
    else match FindOwned(s.files, job.fileId.value, job.userId.value)
      case None => JobOutcome(Failed("File not found"), s)
      case Some(k) =>
        var e := s.files[k];
        if e.localPath.None? || e.localPath.value !in s.blobs then JobOutcome(Done(None), s)
        else
          var lp := e.localPath.value;
          JobOutcome(Done(None), s.(blobs := WriteArtifacts(s.blobs, lp, s.blobs[lp], failures)))
  }

  /** A found image gets `<localPath>_500`, `<localPath>_200` and
      `<localPath>_100`, each unless its own width failed. */
  lemma ThumbnailArtifacts(s: State, job: ThumbnailJob, failures: set<nat>)
    requires ProcessThumbnail(s, job, failures).result.Done?
    ensures
      var t := ProcessThumbnail(s, job, failures).next;
      var e := s.files[FindOwned(s.files, job.fileId.value, job.userId.value).value];
      e.localPath.Some? && e.localPath.value in s.blobs ==>
        var lp := e.localPath.value;
        var src := s.blobs[lp];
        && (500 !in failures ==> t.blobs[DerivedPath(lp, "500")] == Thumbnail(src, 500))
        && (200 !in failures ==> t.blobs[DerivedPath(lp, "200")] == Thumbnail(src, 200))
        && (100 !in failures ==> t.blobs[DerivedPath(lp, "100")] == Thumbnail(src, 100))
        && lp in t.blobs && t.blobs[lp] == src
  {
  }

  /** One width over two runs: the second run, over the first's output, ends
      where one run ends in which the width fails only if it failed both times. */
  lemma WidthTwice(blobs: map<string, Blob>, b1: map<string, Blob>, b2: map<string, Blob>, b: map<string, Blob>,
                   lp: string, src: Blob, width: nat, suffix: string, f1: set<nat>, f2: set<nat>)
    requires WidthOutcome(b1, blobs, lp, src, width, suffix, f1)
    requires WidthOutcome(b2, b1, lp, src, width, suffix, f2)
    requires WidthOutcome(b, blobs, lp, src, width, suffix, f1 * f2)
    ensures var p := DerivedPath(lp, suffix); (p in b2 <==> p in b) && (p in b2 ==> b2[p] == b[p])
  {
  }

  /** Running the width attempts again over their own output, with any
      failures, gives one run in which only the widths that failed both
      times fail. */
  lemma WriteArtifactsTwice(blobs: map<string, Blob>, lp: string, src: Blob, f1: set<nat>, f2: set<nat>)
    ensures WriteArtifacts(WriteArtifacts(blobs, lp, src, f1), lp, src, f2) == WriteArtifacts(blobs, lp, src, f1 * f2)
  {
    var b1 := WriteArtifacts(blobs, lp, src, f1);
    var b2 := WriteArtifacts(b1, lp, src, f2);
    var b := WriteArtifacts(blobs, lp, src, f1 * f2);
    forall p
      ensures (p in b2 <==> p in b) && (p in b2 ==> b2[p] == b[p])
    {
      if p == DerivedPath(lp, "500") {
        WidthTwice(blobs, b1, b2, b, lp, src, 500, "500", f1, f2);
      } else if p == DerivedPath(lp, "200") {
        WidthTwice(blobs, b1, b2, b, lp, src, 200, "200", f1, f2);
      } else if p == DerivedPath(lp, "100") {
        WidthTwice(blobs, b1, b2, b, lp, src, 100, "100", f1, f2);
      } else {
        assert p !in ArtifactPaths(lp);
      }
    }
    assert b2.Keys == b.Keys;
  }

  /** Redelivery: handling a job again, whatever widths fail the second time,
      leaves the state one delivery leaves when only the widths that failed
      both times fail. Nothing is corrupted; artifacts are only overwritten
      with the same contents. */
  lemma ThumbnailRedelivery(s: State, job: ThumbnailJob, f1: set<nat>, f2: set<nat>)
    ensures ProcessThumbnail(ProcessThumbnail(s, job, f1).next, job, f2) == ProcessThumbnail(s, job, f1 * f2)
  {
    var t := ProcessThumbnail(s, job, f1).next;
    if job.fileId.Some? && job.userId.Some? && FindOwned(s.files, job.fileId.value, job.userId.value).Some? {
      var e := s.files[FindOwned(s.files, job.fileId.value, job.userId.value).value];
      if e.localPath.Some? && e.localPath.value in s.blobs {
        var lp := e.localPath.value;
        WriteArtifactsTwice(s.blobs, lp, s.blobs[lp], f1, f2);
      }
    }
  }

  /** Handling the same job twice is handling it once. */
  lemma ThumbnailIdempotent(s: State, job: ThumbnailJob, failures: set<nat>)
    ensures ProcessThumbnail(ProcessThumbnail(s, job, failures).next, job, failures) == ProcessThumbnail(s, job, failures)
  {
    ThumbnailRedelivery(s, job, failures, failures);
    assert failures * failures == failures;
  }

  /** The welcome handler on a payload: `userId` must be present and name a
      registered user; the handler then logs a greeting. */
  function ProcessWelcome(s: State, job: WelcomeJob): (r: JobResult)
    ensures job.userId.None? ==> r == Failed("Missing userId")
    ensures job.userId.Some? ==>
      (r == Failed("User not found") <==> forall i :: 0 <= i < |s.users| ==> s.users[i].id != job.userId.value)
    ensures r.Done? ==>
      exists i :: 0 <= i < |s.users| && s.users[i].id == job.userId.value && r.log == Some("Welcome " + s.users[i].email + "!")
  {
    if job.userId.None? then Failed("Missing userId")
    else match FindUser(s.users, job.userId.value)
      case None => Failed("User not found")
      case Some(u) => Done(Some("Welcome " + u.email + "!"))
  }

  /** The thumbnail consumer as intended: the payload is the job's `data`. */
  function RunThumbnailJob(s: State, job: QueuedJob<ThumbnailJob>, failures: set<nat>): (o: JobOutcome)
    ensures (job.data.fileId.Some? && job.data.userId.Some? &&
             FindOwned(s.files, job.data.fileId.value, job.data.userId.value).Some?) ==> o.result == Done(None)
  {
    ProcessThumbnail(s, job.data, failures)
  }

  /** The welcome consumer as intended: the payload is the job's `data`. */
  function RunWelcomeJob(s: State, job: QueuedJob<WelcomeJob>): (r: JobResult)
    ensures job.data.userId.Some? && FindUser(s.users, job.data.userId.value).Some? ==> r.Done?
  {
    ProcessWelcome(s, job.data)
  }

  /** The thumbnail consumer as written: it destructures the job object
      itself, which has no `fileId` or `userId` property, so both read as
      absent and every job fails. */
  function RunThumbnailJobAsWritten(s: State, job: QueuedJob<ThumbnailJob>, failures: set<nat>): (o: JobOutcome)
    ensures o == JobOutcome(Failed("Missing fileId"), s)
  {
    ProcessThumbnail(s, ThumbnailJob(None, None), failures)
  }

  /** The welcome consumer as written: `userId` is read off the job object
      and is always absent. */
  function RunWelcomeJobAsWritten(s: State, job: QueuedJob<WelcomeJob>): (r: JobResult)
    ensures r == Failed("Missing userId")
  {
    ProcessWelcome(s, WelcomeJob(None))
  }

  /** The thumbnail handler keeps the catalog invariant. */
  lemma ThumbnailPreservesValid(s: State, job: ThumbnailJob, failures: set<nat>)
    requires Valid(s)
    ensures Valid(ProcessThumbnail(s, job, failures).next)
  {
  }
}
